=== FILE: README.md ===
# QR scanner browser adapter: camera selection and controller

This project models the browser implementation of the cordova-plugin-qrscanner
API (`src/browser/src/createQRScannerInternal.js`) in Dafny and proves
properties of that model. It has two parts.

- **Camera selection.** There is no standard way to ask a browser for a camera's facing mode or resolution, so each camera is probed.
  - Each camera is asked for a stream under one exact constraint at a time: `environment` then `user`, then each standard width from 2560 down to 240, then each standard height.
  - For each search, the first constraint the browser grants wins.
  - Cameras whose width or height was not found are dropped. The rest are ranked by width.
  - The back camera is the first `environment` camera in the ranking, else the widest camera, else "unavailable".
  - The front camera is the best camera left, else "unavailable".
- **The controller.** It keeps module-level state: the two camera roles (not chosen, unavailable, or a camera), the current camera index, the active stream, the scanning and previewing flags, the scan cycle and its pending timer, and the preview and still elements.
  - The public operations are prepare, show, hide, scan, cancelScan, pausePreview, resumePreview, useCamera, destroy, enableLight, disableLight, openSettings and getStatus.
  - Each ends in a status snapshot or a numeric error code.

Modules:

- `Search` (`search.dfy`): `Option` and the generic first-match search.
- `Probe` (`probe.dfy`): constraint objects, the short-circuiting constraint search and the per-camera probe.
- `Selection` (`selection.dfy`): device filtering, ranking and role assignment.
- `StatusModel` (`status.dfy`): error codes and the status snapshot.
- `Controller` (`controller.dfy`): the class `QRScanner`, holding the module state and one method per operation or asynchronous event.

The browser is modelled through parameters:

- `accepts: Constraint -> bool` answers the probe's `getUserMedia` requests.
- `Option<seq<MediaDeviceInfo>>` is the outcome of `enumerateDevices`. `None` is a rejection.
- `grants` answers the preview's `getUserMedia` request.
- The frame capture, the interval override and the worker's replies are also parameters.

Each asynchronous callback runs as one atomic step.

Three ghost counters in `QRScanner` make the resource properties statable:

- `liveStreams`: streams granted and not stopped;
- `armedTimers`: timers scheduled and neither fired nor cleared;
- `deliveries`: results given to the current scan session.

The invariant `Valid()` bounds all three by one. Every operation preserves it.

Behaviour as the code has it:

- **Show with a remembered unavailable back camera.** `show` runs `initialize` only when the cameras were never chosen. So with a remembered unavailable back camera it does not fail with 5; it asks for a stream with no device id (`PlaybackRequest` of a role without a camera). If that request is refused, it fails with 3 or 4. `scan` and `resumePreview` go through `show` and behave the same way (`Show`, `Scan`, `ResumePreview`).
- **The scan loop after a result.** The `setTimeout` that is already armed keeps the scan cycle, so one more cycle runs after a result. That cycle schedules `thisScanCycle`, which is `null` by then, and leaves a stale cancel handle behind. A later `cancelScan` then still reports `SCAN_CANCELED` (`TimerFires`, `CancelScan`).
- **A cancelled scan can restart on resume.** `cancelScan` clears the pending timer but leaves `thisScanCycle` set, and `resumePreview` reruns `thisScanCycle` whenever it is set. So a `resumePreview` after a cancelled scan starts the loop again, and a timer is armed with no scan in progress (`CancelScan` keeps `scanCycle`; `ResumePreview` runs exactly when it is set). `destroy` also keeps `thisScanCycle` (`Destroy`), but the cycle then captures from a removed element; see `ResumePreview` under "Left out".
- **Repeated device ids.** The two roles go to different devices only when the enumerated video inputs have distinct ids (`ChoiceRolesDistinct`). Nothing in the selection checks that. Two video inputs reporting the same id, such as the empty id browsers report before camera permission is given, are probed twice and fill both roles with that one device (`DuplicateIdsShareDevice`, `EmptyIdsShareDevice`).
- **Destroy keeps the index and the previewing flag.** `destroy` forgets both cameras and removes the elements but leaves `currentCamera` and `previewing` as they were. So after a destroy the status still reports the old camera index and previewing flag, not the values from before the first prepare (`Destroy`).
- **Zero width or height.** A width or height of 0 is left out of a constraint, following JavaScript truthiness (`ConstraintFor`).

## Model

| member | source | states |
|---|---|---|
| Search.FirstIndex | src/browser/src/createQRScannerInternal.js:164-171 | The index returned satisfies the predicate and no earlier element does; `None` exactly when no element satisfies it |
| Probe.StandardSizesDescending | src/browser/src/createQRScannerInternal.js:27-34 | The standard widths and heights are strictly descending |
| Probe.ConstraintFor | src/browser/src/createQRScannerInternal.js:55-68 | The constraint always carries the exact device id and the facing mode; it carries a width or height exactly when one is given and non-zero, and then that value |
| Probe.FirstResolving | src/browser/src/createQRScannerInternal.js:82-116 | The result is the first candidate in list order the browser accepts, or `None` exactly when it accepts none; the requests made are the candidates up to and including the winner and no later one |
| Probe.FacingCandidates | src/browser/src/createQRScannerInternal.js:70-72 | Two candidates for the device, `environment` then `user`, each with no width or height |
| Probe.WidthCandidates | src/browser/src/createQRScannerInternal.js:73-75 | One candidate per standard size, in the same order, each an exact width for the device with no facing mode or height |
| Probe.HeightCandidates | src/browser/src/createQRScannerInternal.js:76-78 | One candidate per standard size, in the same order, each an exact height for the device with no facing mode or width |
| Probe.ProbeSpec | src/browser/src/createQRScannerInternal.js:118-127 | The record keeps the device id; a recorded facing mode, width or height is one the browser accepted for that device alone, and a recorded width or height is a standard size |
| Probe.GetCameraSpecsById | src/browser/src/createQRScannerInternal.js:118-129 | The camera record is built from the three searches' winners (facing mode, width, height) and keeps the probed device id |
| Probe.ProbeFacingMode | src/browser/src/createQRScannerInternal.js:36-39 | The recorded facing mode is `environment` exactly when that is accepted, `user` exactly when `environment` is refused and `user` accepted, and unknown when both are refused |
| Probe.FirstAcceptedIsLargest | src/browser/src/createQRScannerInternal.js:29-34 | Over a strictly descending list of sizes, the first accepted size is accepted and no larger listed size is; no size is found exactly when none is accepted |
| Probe.ProbeWidthIsLargestAccepted | src/browser/src/createQRScannerInternal.js:73-75 | The recorded width is the largest standard size the device accepts as an exact width; unknown exactly when it accepts none |
| Probe.ProbeHeightIsLargestAccepted | src/browser/src/createQRScannerInternal.js:76-78 | The recorded height is the largest standard size the device accepts as an exact height; unknown exactly when it accepts none |
| Selection.VideoInputIds | src/browser/src/createQRScannerInternal.js:134-140 | An id is listed exactly when some enumerated device of kind `videoinput` has it; no more ids than devices |
| Selection.Probes | src/browser/src/createQRScannerInternal.js:145-149 | One probe record per video input id, in order, each the probe of that id |
| Selection.ProbeAll | src/browser/src/createQRScannerInternal.js:145-149 | Probing the ids one after the other gives the same records as the independent per-id probes |
| Selection.ProbesDistinct | src/browser/src/createQRScannerInternal.js:145-149 | Distinct device ids give records with distinct device ids |
| Selection.FilterUsable | src/browser/src/createQRScannerInternal.js:150-155 | A camera is kept exactly when it was probed and both its width and height were detected |
| Selection.FilterUsableDistinct | src/browser/src/createQRScannerInternal.js:150-155 | Filtering keeps device ids distinct |
| Selection.RankByWidth | src/browser/src/createQRScannerInternal.js:156-159 | The ranking has as many cameras as the pool (its order and contents are stated by the two lemmas below) |
| Selection.RankByWidthPermutes | src/browser/src/createQRScannerInternal.js:156-159 | Ranking is a permutation: the same cameras, each as often |
| Selection.RankByWidthSorted | src/browser/src/createQRScannerInternal.js:156-159 | The ranking is ordered by non-increasing width |
| Selection.RankByWidthDistinct | src/browser/src/createQRScannerInternal.js:156-159 | Ranking keeps device ids distinct |
| Selection.InsertSorted | src/browser/src/createQRScannerInternal.js:156-159 | Inserting a camera into a ranking ordered by width keeps it ordered |
| Selection.RoleAssignment | src/browser/src/createQRScannerInternal.js:160-194 | Both roles are decided; the back camera is unavailable exactly when the ranking is empty, the front camera exactly when it has at most one camera |
| Selection.AssignRoles | src/browser/src/createQRScannerInternal.js:160-194 | The splicing loop assigns exactly the roles `RoleAssignment` defines |
| Selection.BackPrefersEnvironment | src/browser/src/createQRScannerInternal.js:164-171 | With an environment camera ranked, the back camera is the first of them and, on a sorted ranking, no environment camera is wider |
| Selection.BackIsWidestWithoutEnvironment | src/browser/src/createQRScannerInternal.js:172-182 | Without an environment camera, the back camera is the first, widest camera |
| Selection.FrontIsNextBest | src/browser/src/createQRScannerInternal.js:183-189 | The front camera is the first entry left after the back camera is spliced out, a different position, and no narrower than any other entry but the back camera |
| Selection.RolesAreDistinct | src/browser/src/createQRScannerInternal.js:164-189 | With distinct ids in the ranking, back and front never name the same device |
| Selection.ChosenFromPool | src/browser/src/createQRScannerInternal.js:150-189 | Any ordering of the pool by width, whatever the tie order, gives roles following the selection rules over the pool |
| Selection.BackFromPool | src/browser/src/createQRScannerInternal.js:164-182 | Any ordering of the pool by width gives a back camera following the back-camera half of the selection rules |
| Selection.FrontFromPool | src/browser/src/createQRScannerInternal.js:183-189 | Any ordering of the pool by width gives a front camera following the front-camera half of the selection rules |
| Selection.Choice | src/browser/src/createQRScannerInternal.js:132-194 | Both roles are decided, and a front camera exists only with a back camera |
| Selection.ChoiceFollowsRules | src/browser/src/createQRScannerInternal.js:150-189 | The choice follows the selection rules over the usable probed cameras: an empty pool gives both unavailable, one camera gives a back camera and no front camera, and the back and front cameras are chosen as stated above |
| Selection.ChoiceRolesDistinct | src/browser/src/createQRScannerInternal.js:164-189 | With distinct enumerated video ids, back and front are different devices |
| Selection.DuplicateIdsShareDevice | src/browser/src/createQRScannerInternal.js:134-194 | Two video inputs reporting the same id, probed as usable, get both roles, each holding that id |
| Selection.EmptyIdsShareDevice | src/browser/src/createQRScannerInternal.js:134-194 | With every request granted, two video inputs with the empty id get both roles on the same device id |
| Selection.ChooseCameras | src/browser/src/createQRScannerInternal.js:132-195 | Fails exactly when the enumeration fails; otherwise resolves to the choice over the enumerated devices |
| StatusModel.IntToString | src/browser/src/createQRScannerInternal.js:269 | The decimal form of the index: a leading '-' exactly for negatives, a single digit exactly for 0 to 9 |
| StatusModel.IsInitialized | src/browser/src/createQRScannerInternal.js:238-240 | Initialized exactly when the back role was decided, whether it holds a camera or is unavailable |
| StatusModel.CanChangeCamera | src/browser/src/createQRScannerInternal.js:242-244 | True exactly when neither role is undecided or unavailable; implies both roles are initialized |
| StatusModel.CalcStatus | src/browser/src/createQRScannerInternal.js:246-271 | `authorized` exactly when the back role holds a camera; `prepared` exactly when it was chosen (also when unavailable); `canChangeCamera` exactly when both roles hold cameras; scanning, previewing and showing mirror the state; `denied`, `restricted`, `lightEnabled`, `canOpenSettings`, `canEnableLight` are always '0'; `currentCamera` is "0"/"1" exactly for index 0/1 |
| Controller.ScanInterval | src/browser/src/createQRScannerInternal.js:468 | The override when set and non-zero, else 130; never 0 |
| Controller.PlaybackRequest | src/browser/src/createQRScannerInternal.js:276-282 | The exact id and the ideal width and height of the current camera; no id, width or height when the role holds no camera |
| Controller.QRScanner.CurrentCameraSlot | src/browser/src/createQRScannerInternal.js:218-220 | The front role for index 1, the back role for any other index |
| Controller.QRScanner.constructor | src/browser/src/createQRScannerInternal.js:14-25 | Nothing chosen, index 0, no stream, no scan, no elements, no timer |
| Controller.QRScanner.KillActiveMediaStream | src/browser/src/createQRScannerInternal.js:201-204 | No stream is live afterwards; nothing else changes |
| Controller.QRScanner.PrepareDom | src/browser/src/createQRScannerInternal.js:350-372 | The preview and still elements exist afterwards; cameras, stream, flags and the scan loop are unchanged |
| Controller.QRScanner.StoreCameras | src/browser/src/createQRScannerInternal.js:375-376 | Both roles hold the chooser's answer; nothing else changes |
| Controller.QRScanner.SetInstanceCameras | src/browser/src/createQRScannerInternal.js:373-387 | A failed enumeration leaves the cameras undecided and reports 0; otherwise both roles hold the choice over the enumerated devices, with 5 exactly when the back camera is unavailable and success otherwise |
| Controller.QRScanner.Initialize | src/browser/src/createQRScannerInternal.js:336-393 | Elements exist afterwards; the chooser runs exactly when no cameras were chosen, and its choice is stored; chosen cameras are kept; success exactly when the back role holds a camera, 5 exactly for an unavailable back camera; 0 exactly when the cameras were undecided and the enumeration failed |
| Controller.QRScanner.Prepare | src/browser/src/createQRScannerInternal.js:399-406 | Success with the status (authorized and prepared) exactly when the back role holds a camera; otherwise initialize's error, 0 exactly when undecided cameras met a failed enumeration; cameras chosen once until destroy, and when chosen here they are the choice over the enumerated devices; the elements exist afterwards; the camera index, scanning, previewing, the stream and the scan loop are unchanged |
| Controller.QRScanner.StartCamera | src/browser/src/createQRScannerInternal.js:273-303 | A stream becomes active exactly when the request for the current camera is granted; a refusal reports 4 for a non-zero index and 3 for index 0 |
| Controller.QRScanner.Show | src/browser/src/createQRScannerInternal.js:408-426 | With an active stream only reports status; otherwise initializes if needed (storing the choice over the enumerated devices, failing with 0 on a failed enumeration) and opens one stream; when the back role holds a camera and no stream was active, one is opened exactly when the browser grants the request for the current camera; success exactly when a stream is active; a refused request reports 4 for a non-zero index and 3 for index 0; cameras found unavailable here give 5; errors only 0, 3, 4, 5; the elements exist afterwards |
| Controller.QRScanner.Hide | src/browser/src/createQRScannerInternal.js:428-439 | Never fails; no stream is live afterwards; nothing else changes |
| Controller.QRScanner.CancelNextScan | src/browser/src/createQRScannerInternal.js:472-479 | The pending timer is cleared and the handle dropped |
| Controller.QRScanner.RunCycle | src/browser/src/createQRScannerInternal.js:457-480 | Posts a frame exactly when one was captured; clears any pending timer before arming the next, so exactly one is armed; the interval is the override or 130 |
| Controller.QRScanner.StartScanSession | src/browser/src/createQRScannerInternal.js:443-482 | A fresh session that has delivered nothing, listening for the worker, with the cycle set, one timer armed, the frame posted exactly when captured and the interval the override or 130; cameras, stream and preview unchanged |
| Controller.QRScanner.Scan | src/browser/src/createQRScannerInternal.js:441-483 | Show's error is passed through with no scan started; otherwise scanning starts a fresh session that has delivered nothing, with one timer armed; when the cameras were decided before the call, or the back role holds a camera, the scan starts exactly when the stream is already active or the request for the current camera is granted; a refused request fails with 4 or 3 by index; chosen cameras are kept, cameras chosen here are the choice over the enumerated devices, a failed enumeration gives 0 and an unavailable back camera found here gives 5; the elements exist afterwards |
| Controller.QRScanner.TimerFires | src/browser/src/createQRScannerInternal.js:471 | A timer armed with the cycle runs it and re-arms one timer that runs the cycle exactly when the cycle is still set; one armed after a result runs nothing and leaves the stale handle; cameras, stream, flags and elements are unchanged |
| Controller.QRScanner.OnWorkerMessage | src/browser/src/createQRScannerInternal.js:449-456 | A non-empty result is delivered exactly when it is the session's first, and then ends the cycle; a session delivers at most one result; timers, cameras, stream, flags and elements are unchanged |
| Controller.QRScanner.CancelScan | src/browser/src/createQRScannerInternal.js:485-494 | Never fails; scanning stops; SCAN_CANCELED is raised exactly when a timer handle was pending; otherwise only the flag changes |
| Controller.QRScanner.PausePreview | src/browser/src/createQRScannerInternal.js:496-516 | Never fails; no stream is live afterwards; with a stream, the pending timer is cleared and the still image is brought to the front; the cycle is kept for resume |
| Controller.QRScanner.ResumePreview | src/browser/src/createQRScannerInternal.js:518-524 | Reruns the cycle exactly when one exists, then shows: chosen cameras are kept and, when they were decided and no stream was active, a stream is opened exactly when the request for the current camera is granted; whenever the back role holds a camera, a refusal reports 4 or 3 by index; cameras chosen here are the choice over the enumerated devices, a failed enumeration gives 0 and an unavailable back camera found here gives 5; the elements exist afterwards; the camera index, scanning and previewing are unchanged, and so are the session's worker handler, `returned` flag and deliveries, so a scan paused and resumed still delivers its first result |
| Controller.QRScanner.OnPreviewLoaded | src/browser/src/createQRScannerInternal.js:230-236 | Previewing becomes true when the still element exists |
| Controller.QRScanner.EnableLight | src/browser/src/createQRScannerInternal.js:526-528 | Always fails with 7 |
| Controller.QRScanner.DisableLight | src/browser/src/createQRScannerInternal.js:530-532 | Always fails with 7 |
| Controller.QRScanner.OpenSettings | src/browser/src/createQRScannerInternal.js:557-559 | Always fails with 8 |
| Controller.QRScanner.GetStatus | src/browser/src/createQRScannerInternal.js:561-564 | Always succeeds with the current status |
| Controller.QRScanner.UseCamera | src/browser/src/createQRScannerInternal.js:534-555 | The current index changes nothing; initialized, index 1 without two cameras fails with 4 and keeps the index; otherwise the index changes and, when initialized, the stream is reopened on the new camera, failing with 4 or 3 on refusal; cameras, scan loop, flags and elements are unchanged |
| Controller.QRScanner.ForgetCamerasAndElements | src/browser/src/createQRScannerInternal.js:575-585 | Both cameras forgotten and the preview and still elements removed; the camera index, stream, flags and scan loop are unchanged |
| Controller.QRScanner.Destroy | src/browser/src/createQRScannerInternal.js:569-586 | Never fails; both cameras are forgotten, no stream, no scan, no timer and no elements remain; the status reports not prepared and not scanning; SCAN_CANCELED is raised exactly when a timer handle was pending; the camera index, previewing flag, scan cycle and the session's worker handler and `returned` flag are kept, so a late result can still be delivered |

## Left out

- Controller.QRScanner.ResumePreview: a frame capture that throws is not modelled. After `destroy` the cycle still holds the removed preview element; capturing from it sizes the canvas to 0 by 0, `getImageData` throws, and `resumePreview` stops inside the cycle without reaching `show` or either continuation. The model runs the cycle and then `Show`, as it does for a capture that merely yields no frame.
- The decode worker and its script: a reply is an input (`OnWorkerMessage`). The worker is created with the other resources in `initialize` and is not modelled as state.
- Canvas snapshotting: whether a frame could be captured is an input.
- DOM construction, styling, the `srcObject`/`createObjectURL` fallback and the still image's background: only the presence of the preview and still elements, and the `previewing` flag, are kept.
- Stopping a stream's tracks is left out. A stream is a flag plus the ghost count of live streams.
- The probe streams: each is stopped as soon as it is granted, so none stays live. Only the `accepts` answers are modelled.
- Real timers: a pending timer is the `cancelNextScan` handle plus the ghost count of armed timers, and the delay is returned as a value.
- Promise concurrency: `Promise.all` over the probes is a map (`Probes`), run one probe after another (`ProbeAll`). Asynchronous callbacks run atomically, so interleavings of two operations in flight (for example a `destroy` during camera selection) are not modelled.
- The oracles are functions, so a device answers the same constraint the same way every time.
- Selection.RankByWidth: ties between cameras of equal width keep enumeration order (a stable sort). The source leaves tie order to the engine, so the proved properties are stated for any ordering by width (`ChosenFromPool`).
- Controller.QRScanner.UseCamera: the requested index is an integer. Non-integer arguments to `useCamera` are not modelled.
- Controller.QRScanner.Scan: when show fails, the returned `posted` and `interval` carry no meaning.

=== FILE: controller.dfy ===
/**
 * The controller behind the public API (prepare, show, hide, scan,
 * cancelScan, pausePreview, resumePreview, useCamera, destroy, the light and
 * settings operations, getStatus).
 *
 * The module-level variables of the source are the fields of `QRScanner`.
 * Each asynchronous callback runs as one atomic step, and what the browser
 * answers is a parameter: the outcome of enumerateDevices, the probe oracle,
 * the oracle answering the preview's getUserMedia request, whether a frame
 * could be captured, the interval override, and the worker's replies
 * (OnWorkerMessage), timer expiry (TimerFires) and the preview's
 * `loadeddata` event (OnPreviewLoaded).
 */
module Controller {
  import opened Search
  import opened Probe
  import opened Selection
  import opened StatusModel

  const DEFAULT_SCAN_INTERVAL: int := 130

  /** `window.QRScanner_SCAN_INTERVAL || 130`: an unset or zero override falls back to the default. */
  function ScanInterval(intervalOverride: Option<int>): (ms: int)
    ensures intervalOverride.Some? && intervalOverride.value != 0 ==> ms == intervalOverride.value
    ensures intervalOverride.None? || intervalOverride.value == 0 ==> ms == DEFAULT_SCAN_INTERVAL
    ensures ms != 0
  {
    if intervalOverride.Some? && intervalOverride.value != 0 then intervalOverride.value else DEFAULT_SCAN_INTERVAL
  }

  /**
   * The preview's getUserMedia request: the exact device id and the ideal
   * width and height of the current camera. A camera role that holds no
   * camera has no such properties, so the id is absent (`undefined`).
   */
  datatype PlaybackConstraint = PlaybackConstraint(deviceId: Option<string>, idealWidth: Option<nat>, idealHeight: Option<nat>)

  function PlaybackRequest(camera: Slot): (c: PlaybackConstraint)
    ensures camera.Chosen? ==> c == PlaybackConstraint(Some(camera.camera.deviceId), camera.camera.width, camera.camera.height)
    ensures !camera.Chosen? ==> c == PlaybackConstraint(None, None, None)
  {
    match camera
    case Chosen(spec) => PlaybackConstraint(Some(spec.deviceId), spec.width, spec.height)
    case _ => PlaybackConstraint(None, None, None)
  }

  type Grants = PlaybackConstraint -> bool

  class QRScanner {
    var backCamera: Slot
    var frontCamera: Slot
    var currentCamera: int
    /** activeMediaStream !== null */
    var streamActive: bool
    var scanning: bool
    var previewing: bool
    /** The video preview element is in the document. */
    var previewPresent: bool
    /** The still-image element is in the document. */
    var stillPresent: bool
    /** thisScanCycle !== null */
    var scanCycle: bool
    /** cancelNextScan !== null */
    var cancelNextScan: bool
    /** The armed timer's callback is the cycle; it is `null` when it was scheduled after a result cleared thisScanCycle. */
    var timerRunsCycle: bool
    /** scanWorker.onmessage has been installed by a scan. */
    var listening: bool
    /** The current scan session's `returned` flag. */
    var scanReturned: bool

    /** Streams granted to the preview and not yet stopped. */
    ghost var liveStreams: nat
    /** Timers scheduled by the scan cycle that have neither fired nor been cleared. */
    ghost var armedTimers: nat
    /** Results handed to the current scan session's success continuation. */
    ghost var deliveries: nat

    /**
     * The controller's invariant: the only live stream is the active one;
     * at most one timer is armed, and then cancelNextScan can clear it; a
     * scan session delivers at most one result; the cameras are chosen
     * together; and the preview and still elements exist whenever cameras
     * were chosen or a stream is live.
     */
    ghost predicate Valid()
      reads this
    {
      && liveStreams == (if streamActive then 1 else 0)
      && armedTimers <= 1
      && (armedTimers == 1 ==> cancelNextScan)
      && deliveries == (if scanReturned then 1 else 0)
      && (backCamera == NotChosen <==> frontCamera == NotChosen)
      && (frontCamera.Chosen? ==> backCamera.Chosen?)
      && (streamActive ==> backCamera != NotChosen)
      && (backCamera != NotChosen ==> previewPresent)
      && previewPresent == stillPresent
    }

    /** The scan-loop part of the state. */
    ghost function LoopState(): (bool, bool, bool, bool, bool, nat, nat)
      reads this
    {
      (scanCycle, cancelNextScan, timerRunsCycle, listening, scanReturned, armedTimers, deliveries)
    }

    function CurrentStatus(): (s: Status)
      reads this
    {
      CalcStatus(backCamera, frontCamera, currentCamera, scanning, previewing, previewPresent)
    }

    /** getCurrentCamera */
    function CurrentCameraSlot(): (slot: Slot)
      reads this
      ensures currentCamera == 1 ==> slot == frontCamera
      ensures currentCamera != 1 ==> slot == backCamera
    {
      if currentCamera == 1 then frontCamera else backCamera
    }

    /** The module's initial state: nothing chosen, no stream, no scan, no elements. */
    constructor ()
      ensures Valid()
      ensures backCamera == NotChosen && frontCamera == NotChosen && currentCamera == 0
      ensures !streamActive && !scanning && !previewing && !previewPresent && !stillPresent
      ensures !scanCycle && !cancelNextScan && !listening && armedTimers == 0
    {
      backCamera, frontCamera, currentCamera := NotChosen, NotChosen, 0;
      streamActive, scanning, previewing := false, false, false;
      previewPresent, stillPresent := false, false;
      scanCycle, cancelNextScan, timerRunsCycle, listening, scanReturned := false, false, false, false, false;
      liveStreams, armedTimers, deliveries := 0, 0, 0;
    }

    /** killActiveMediaStream */
    method KillActiveMediaStream()
      requires Valid() && streamActive
      modifies this
      ensures Valid() && !streamActive && liveStreams == 0
      ensures backCamera == old(backCamera) && frontCamera == old(frontCamera) && currentCamera == old(currentCamera)
      ensures scanning == old(scanning) && previewing == old(previewing)
      ensures previewPresent == old(previewPresent) && stillPresent == old(stillPresent)
      ensures LoopState() == old(LoopState())
    {
      streamActive := false;
      liveStreams := liveStreams - 1;
    }

    /** Create the preview and still elements when the preview is missing. */
    method PrepareDom()
      requires Valid()
      modifies this
      ensures Valid() && previewPresent && stillPresent
      ensures backCamera == old(backCamera) && frontCamera == old(frontCamera) && currentCamera == old(currentCamera)
      ensures streamActive == old(streamActive) && liveStreams == old(liveStreams)
      ensures scanning == old(scanning) && previewing == old(previewing)
      ensures LoopState() == old(LoopState())
    {
      if !previewPresent {
        previewPresent := true;
        stillPresent := true;
      }
    }

    /** Store the chooser's answer in both roles. */
    method StoreCameras(cameras: Cameras)
      requires Valid() && previewPresent
      requires cameras.back != NotChosen && cameras.front != NotChosen && (cameras.front.Chosen? ==> cameras.back.Chosen?)
      modifies this
      ensures Valid() && previewPresent && stillPresent
      ensures backCamera == cameras.back && frontCamera == cameras.front
      ensures currentCamera == old(currentCamera) && streamActive == old(streamActive) && liveStreams == old(liveStreams)
      ensures scanning == old(scanning) && previewing == old(previewing)
      ensures LoopState() == old(LoopState())
    {
      backCamera := cameras.back;
      frontCamera := cameras.front;
    }

    /**
     * Set the instance cameras: run the chooser and store both roles. `err`
     * is 0 when the chooser fails, 5 when no back camera is available.
     */
    method SetInstanceCameras(enumeration: Option<seq<MediaDeviceInfo>>, accepts: Oracle) returns (err: Option<nat>)
      requires Valid() && backCamera == NotChosen && previewPresent
      modifies this
      ensures Valid() && previewPresent && stillPresent
      ensures enumeration.Some? ==> Cameras(backCamera, frontCamera) == Choice(enumeration.value, accepts)
      ensures enumeration.None? ==> backCamera == NotChosen && frontCamera == NotChosen && err == Some(UNEXPECTED_ERROR)
      ensures enumeration.Some? ==> err == (if backCamera == Unavailable then Some(CAMERA_UNAVAILABLE) else None)
      ensures currentCamera == old(currentCamera) && streamActive == old(streamActive) && liveStreams == old(liveStreams)
      ensures scanning == old(scanning) && previewing == old(previewing)
      ensures LoopState() == old(LoopState())
    {
      var cameras := ChooseCameras(enumeration, accepts);
      if cameras.None? {
        err := Some(UNEXPECTED_ERROR);
      } else {
        StoreCameras(cameras.value);
        if backCamera != Unavailable {
          err := None;
        } else {
          err := Some(CAMERA_UNAVAILABLE);
        }
      }
    }

    /**
     * initialize: create the preview and still elements when missing, then
     * choose the cameras only if none were chosen. `err` is the code passed
     * to the error continuation, `None` for the success continuation.
     */
    method Initialize(enumeration: Option<seq<MediaDeviceInfo>>, accepts: Oracle) returns (err: Option<nat>, ghost chose: bool)
      requires Valid()
      modifies this
      ensures Valid() && previewPresent && stillPresent
      ensures chose <==> old(backCamera) == NotChosen
      ensures old(backCamera) != NotChosen ==> backCamera == old(backCamera) && frontCamera == old(frontCamera)
      ensures old(backCamera) == NotChosen && enumeration.Some? ==>
        Cameras(backCamera, frontCamera) == Choice(enumeration.value, accepts)
      ensures err.None? <==> backCamera.Chosen?
      ensures err == Some(CAMERA_UNAVAILABLE) <==> backCamera == Unavailable
      ensures err == Some(UNEXPECTED_ERROR) <==> backCamera == NotChosen
      ensures err == Some(UNEXPECTED_ERROR) ==> enumeration.None?
      ensures old(backCamera) == NotChosen && enumeration.None? ==> err == Some(UNEXPECTED_ERROR)
      ensures currentCamera == old(currentCamera) && streamActive == old(streamActive) && liveStreams == old(liveStreams)
      ensures scanning == old(scanning) && previewing == old(previewing)
      ensures LoopState() == old(LoopState())
    {
      PrepareDom();
      chose := false;
      if backCamera == NotChosen {
        chose := true;
        err := SetInstanceCameras(enumeration, accepts);
      } else if backCamera == Unavailable {
        err := Some(CAMERA_UNAVAILABLE);
      } else {
        err := None;
      }
    }

    /** prepare: initialize, then report the status. */
    method Prepare(enumeration: Option<seq<MediaDeviceInfo>>, accepts: Oracle) returns (r: Reply)
      requires Valid()
      modifies this
      ensures Valid()
      ensures old(backCamera) != NotChosen ==> backCamera == old(backCamera) && frontCamera == old(frontCamera)
      ensures old(backCamera) == NotChosen && enumeration.Some? ==>
        Cameras(backCamera, frontCamera) == Choice(enumeration.value, accepts)
      ensures r.Success? <==> backCamera.Chosen?
      ensures r.Success? ==> r.status == CurrentStatus() && r.status.authorized == "1" && r.status.prepared == "1"
      ensures r == Failure(CAMERA_UNAVAILABLE) <==> backCamera == Unavailable
      ensures r == Failure(UNEXPECTED_ERROR) <==> backCamera == NotChosen
      ensures r == Failure(UNEXPECTED_ERROR) ==> enumeration.None?
      ensures old(backCamera) == NotChosen && enumeration.None? ==> r == Failure(UNEXPECTED_ERROR)
      ensures previewPresent && stillPresent
      ensures currentCamera == old(currentCamera) && scanning == old(scanning) && previewing == old(previewing)
      ensures streamActive == old(streamActive) && liveStreams == old(liveStreams)
      ensures LoopState() == old(LoopState())
    {
      var err, _ := Initialize(enumeration, accepts);
      if err.None? {
        r := Success(CurrentStatus());
      } else {
        r := Failure(err.value);
      }
    }

    /**
     * startCamera: ask for a stream on the current camera. On success the
     * stream becomes the active one; on refusal the error is 4 for a
     * non-zero camera index and 3 for index 0.
     */
    method StartCamera(grants: Grants) returns (r: Reply)
      requires Valid() && !streamActive && backCamera != NotChosen
      modifies this
      ensures Valid()
      ensures streamActive <==> grants(PlaybackRequest(old(CurrentCameraSlot())))
      ensures r.Success? <==> streamActive
      ensures r.Success? ==> r.status == CurrentStatus()
      ensures r.Failure? ==> r.code == (if currentCamera != 0 then FRONT_CAMERA_UNAVAILABLE else BACK_CAMERA_UNAVAILABLE)
      ensures backCamera == old(backCamera) && frontCamera == old(frontCamera) && currentCamera == old(currentCamera)
      ensures scanning == old(scanning) && previewing == old(previewing)
      ensures previewPresent == old(previewPresent) && stillPresent == old(stillPresent)
      ensures LoopState() == old(LoopState())
    {
      var currentCameraIndex := currentCamera;
      var camera := CurrentCameraSlot();
      if grants(PlaybackRequest(camera)) {
        streamActive := true;
        liveStreams := liveStreams + 1;
        r := Success(CurrentStatus());
      } else {
        r := Failure(if currentCameraIndex != 0 then FRONT_CAMERA_UNAVAILABLE else BACK_CAMERA_UNAVAILABLE);
      }
    }

    /**
     * show: initialize when cameras were never chosen, then open a stream
     * only when none is active; with an active stream it just reports the
     * status.
     */
    method Show(enumeration: Option<seq<MediaDeviceInfo>>, accepts: Oracle, grants: Grants) returns (r: Reply)
      requires Valid()
      modifies this
      ensures Valid()
      ensures old(streamActive) ==> r == Success(CurrentStatus()) && streamActive && liveStreams == old(liveStreams)
      ensures old(streamActive) ==> backCamera == old(backCamera) && frontCamera == old(frontCamera)
      ensures old(backCamera) != NotChosen ==> backCamera == old(backCamera) && frontCamera == old(frontCamera)
      ensures !old(streamActive) && streamActive ==> backCamera != NotChosen && grants(PlaybackRequest(CurrentCameraSlot()))
      ensures !old(streamActive) && old(backCamera) != NotChosen ==> (streamActive <==> grants(PlaybackRequest(CurrentCameraSlot())))
      ensures r.Success? <==> streamActive
      ensures r.Success? ==> r.status == CurrentStatus()
      ensures r.Failure? ==> r.code in {UNEXPECTED_ERROR, BACK_CAMERA_UNAVAILABLE, FRONT_CAMERA_UNAVAILABLE, CAMERA_UNAVAILABLE}
      ensures r == Failure(BACK_CAMERA_UNAVAILABLE) ==> currentCamera == 0
      ensures r == Failure(FRONT_CAMERA_UNAVAILABLE) ==> currentCamera != 0
      ensures old(backCamera) != NotChosen && r.Failure? ==>
        r.code == (if currentCamera != 0 then FRONT_CAMERA_UNAVAILABLE else BACK_CAMERA_UNAVAILABLE)
      ensures old(backCamera) == NotChosen && r == Failure(CAMERA_UNAVAILABLE) ==> backCamera == Unavailable
      ensures old(backCamera) == NotChosen && enumeration.Some? ==> Cameras(backCamera, frontCamera) == Choice(enumeration.value, accepts)
      ensures old(backCamera) == NotChosen && enumeration.None? ==> r == Failure(UNEXPECTED_ERROR)
      ensures !old(streamActive) && backCamera.Chosen? ==> (streamActive <==> grants(PlaybackRequest(CurrentCameraSlot())))
      ensures !old(streamActive) && backCamera.Chosen? && r.Failure? ==>
        r.code == (if currentCamera != 0 then FRONT_CAMERA_UNAVAILABLE else BACK_CAMERA_UNAVAILABLE)
      ensures old(backCamera) == NotChosen && backCamera == Unavailable ==> r == Failure(CAMERA_UNAVAILABLE)
      ensures previewPresent && stillPresent
      ensures currentCamera == old(currentCamera) && scanning == old(scanning) && previewing == old(previewing)
      ensures LoopState() == old(LoopState())
    {
      if backCamera == NotChosen {
        var err, _ := Initialize(enumeration, accepts);
        if err.Some? {
          return Failure(err.value);
        }
      }
      if !streamActive {
        r := StartCamera(grants);
      } else {
        r := Success(CurrentStatus());
      }
    }

    /** hide: stop the active stream, if any; never an error. */
    method Hide() returns (r: Reply)
      requires Valid()
      modifies this
      ensures Valid() && !streamActive && liveStreams == 0
      ensures r == Success(CurrentStatus())
      ensures backCamera == old(backCamera) && frontCamera == old(frontCamera) && currentCamera == old(currentCamera)
      ensures scanning == old(scanning) && previewing == old(previewing)
      ensures previewPresent == old(previewPresent) && stillPresent == old(stillPresent)
      ensures LoopState() == old(LoopState())
    {
      if streamActive {
        KillActiveMediaStream();
      }
      r := Success(CurrentStatus());
    }

    /** cancelNextScan: clear the pending timer and drop the handle. */
    method CancelNextScan()
      requires Valid() && cancelNextScan
      modifies this
      ensures Valid() && !cancelNextScan && armedTimers == 0
      ensures backCamera == old(backCamera) && frontCamera == old(frontCamera) && currentCamera == old(currentCamera)
      ensures streamActive == old(streamActive) && liveStreams == old(liveStreams)
      ensures scanning == old(scanning) && previewing == old(previewing)
      ensures previewPresent == old(previewPresent) && stillPresent == old(stillPresent)
      ensures scanCycle == old(scanCycle) && timerRunsCycle == old(timerRunsCycle)
      ensures listening == old(listening) && scanReturned == old(scanReturned) && deliveries == old(deliveries)
    {
      armedTimers := 0;
      cancelNextScan := false;
    }

    /**
     * One scan cycle (thisScanCycle): post a frame to the worker when one
     * could be captured, clear any pending tick, then arm the next one,
     * whose callback is whatever thisScanCycle holds now.
     */
    method RunCycle(frameAvailable: bool, intervalOverride: Option<int>) returns (posted: bool, interval: int)
      requires Valid()
      modifies this
      ensures Valid()
      ensures posted == frameAvailable
      ensures interval == ScanInterval(intervalOverride)
      ensures armedTimers == 1 && cancelNextScan && timerRunsCycle == scanCycle
      ensures backCamera == old(backCamera) && frontCamera == old(frontCamera) && currentCamera == old(currentCamera)
      ensures streamActive == old(streamActive) && liveStreams == old(liveStreams)
      ensures scanning == old(scanning) && previewing == old(previewing)
      ensures previewPresent == old(previewPresent) && stillPresent == old(stillPresent)
      ensures scanCycle == old(scanCycle) && listening == old(listening)
      ensures scanReturned == old(scanReturned) && deliveries == old(deliveries)
    {
      posted := frameAvailable;
      if cancelNextScan {
        // a pending timer is cleared first, so at most one stays armed
        CancelNextScan();
      }
      interval := ScanInterval(intervalOverride);
      armedTimers := armedTimers + 1;
      timerRunsCycle := scanCycle;
      cancelNextScan := true;
    }

    /**
     * scan's continuation once show succeeded: install a fresh worker handler
     * (its `returned` flag false), set scanning and run the first cycle.
     */
    method StartScanSession(frameAvailable: bool, intervalOverride: Option<int>) returns (posted: bool, interval: int)
      requires Valid()
      modifies this
      ensures Valid()
      ensures scanning && scanCycle && listening && !scanReturned && deliveries == 0
      ensures armedTimers == 1 && cancelNextScan && timerRunsCycle
      ensures posted == frameAvailable && interval == ScanInterval(intervalOverride)
      ensures backCamera == old(backCamera) && frontCamera == old(frontCamera) && currentCamera == old(currentCamera)
      ensures streamActive == old(streamActive) && liveStreams == old(liveStreams)
      ensures previewing == old(previewing)
      ensures previewPresent == old(previewPresent) && stillPresent == old(stillPresent)
    {
      scanning := true;
      listening := true;
      scanReturned := false;
      deliveries := 0;
      scanCycle := true;
      posted, interval := RunCycle(frameAvailable, intervalOverride);
    }

    /**
     * scan: show, then start a new session (a fresh worker handler with
     * `returned` false) and run its first cycle. `err` is the code show
     * failed with, if it did; `posted` and `interval` describe the first cycle.
     */
    method Scan(enumeration: Option<seq<MediaDeviceInfo>>, accepts: Oracle, grants: Grants, frameAvailable: bool, intervalOverride: Option<int>)
      returns (err: Option<nat>, posted: bool, interval: int)
      requires Valid()
      modifies this
      ensures Valid()
      ensures err.Some? ==> err.value in {UNEXPECTED_ERROR, BACK_CAMERA_UNAVAILABLE, FRONT_CAMERA_UNAVAILABLE, CAMERA_UNAVAILABLE}
      ensures err.Some? ==> !streamActive && scanning == old(scanning) && LoopState() == old(LoopState())
      ensures err.None? ==> streamActive && scanning && scanCycle && listening && !scanReturned && deliveries == 0
      ensures err.None? ==> armedTimers == 1 && cancelNextScan && timerRunsCycle
      ensures err.None? ==> posted == frameAvailable && interval == ScanInterval(intervalOverride)
      ensures old(streamActive) ==> err.None? && liveStreams == old(liveStreams)
      ensures !old(streamActive) && backCamera.Chosen? ==> (err.None? <==> grants(PlaybackRequest(CurrentCameraSlot())))
      ensures old(backCamera) != NotChosen && err.Some? ==>
        err.value == (if currentCamera != 0 then FRONT_CAMERA_UNAVAILABLE else BACK_CAMERA_UNAVAILABLE)
      ensures old(backCamera) != NotChosen ==> backCamera == old(backCamera) && frontCamera == old(frontCamera)
      ensures old(backCamera) == NotChosen && enumeration.Some? ==> Cameras(backCamera, frontCamera) == Choice(enumeration.value, accepts)
      ensures old(backCamera) == NotChosen && enumeration.None? ==> err == Some(UNEXPECTED_ERROR)
      ensures !old(streamActive) && backCamera.Chosen? && err.Some? ==>
        err.value == (if currentCamera != 0 then FRONT_CAMERA_UNAVAILABLE else BACK_CAMERA_UNAVAILABLE)
      ensures old(backCamera) == NotChosen && backCamera == Unavailable ==> err == Some(CAMERA_UNAVAILABLE)
      ensures !old(streamActive) && old(backCamera) != NotChosen ==> (err.None? <==> grants(PlaybackRequest(CurrentCameraSlot())))
      ensures previewPresent && stillPresent
      ensures currentCamera == old(currentCamera) && previewing == old(previewing)
    {
      var shown := Show(enumeration, accepts, grants);
      if shown.Failure? {
        return Some(shown.code), false, 0;
      }
      err := None;
      posted, interval := StartScanSession(frameAvailable, intervalOverride);
    }

    /**
     * The armed timer fires. A timer armed with the cycle runs it (which
     * re-arms); one armed after a result cleared thisScanCycle runs nothing,
     * and cancelNextScan keeps its stale handle.
     */
    method TimerFires(frameAvailable: bool, intervalOverride: Option<int>) returns (ran: bool, posted: bool, interval: int)
      requires Valid() && armedTimers == 1
      modifies this
      ensures Valid()
      ensures ran == old(timerRunsCycle)
      ensures ran ==> armedTimers == 1 && timerRunsCycle == scanCycle
      ensures ran ==> posted == frameAvailable && interval == ScanInterval(intervalOverride)
      ensures !ran ==> armedTimers == 0 && !posted && cancelNextScan
      ensures scanCycle == old(scanCycle) && listening == old(listening)
      ensures scanReturned == old(scanReturned) && deliveries == old(deliveries)
      ensures backCamera == old(backCamera) && frontCamera == old(frontCamera) && currentCamera == old(currentCamera)
      ensures streamActive == old(streamActive) && liveStreams == old(liveStreams)
      ensures scanning == old(scanning) && previewing == old(previewing)
      ensures previewPresent == old(previewPresent) && stillPresent == old(stillPresent)
    {
      armedTimers := 0;
      if timerRunsCycle {
        ran := true;
        posted, interval := RunCycle(frameAvailable, intervalOverride);
      } else {
        ran, posted, interval := false, false, 0;
      }
    }

    /**
     * The worker replies. The first non-empty result of a session reaches
     * the success continuation and clears thisScanCycle; later ones are
     * dropped.
     */
    method OnWorkerMessage(result: Option<string>) returns (delivered: Option<string>)
      requires Valid()
      modifies this
      ensures Valid()
      ensures delivered.Some? <==> old(listening) && result.Some? && result.value != "" && !old(scanReturned)
      ensures delivered.Some? ==> delivered == result && old(deliveries) == 0 && deliveries == 1 && !scanCycle
      ensures delivered.None? ==> scanCycle == old(scanCycle) && deliveries == old(deliveries)
      ensures deliveries <= 1
      ensures cancelNextScan == old(cancelNextScan) && armedTimers == old(armedTimers) && timerRunsCycle == old(timerRunsCycle)
      ensures listening == old(listening)
      ensures backCamera == old(backCamera) && frontCamera == old(frontCamera) && currentCamera == old(currentCamera)
      ensures streamActive == old(streamActive) && liveStreams == old(liveStreams)
      ensures scanning == old(scanning) && previewing == old(previewing)
      ensures previewPresent == old(previewPresent) && stillPresent == old(stillPresent)
    {
      if listening && result.Some? && result.value != "" && !scanReturned {
        scanReturned := true;
        deliveries := deliveries + 1;
        scanCycle := false;
        delivered := result;
      } else {
        delivered := None;
      }
    }

    /**
     * cancelScan: clear a pending tick, which raises SCAN_CANCELED on the
     * scan's error continuation (`scanError`), and stop scanning; with no
     * tick pending only the flag changes.
     */
    method CancelScan() returns (r: Reply, scanError: Option<nat>)
      requires Valid()
      modifies this
      ensures Valid() && !scanning && !cancelNextScan && armedTimers == 0
      ensures scanError == (if old(cancelNextScan) then Some(SCAN_CANCELED) else None)
      ensures r == Success(CurrentStatus()) && r.status.scanning == "0"
      ensures !old(cancelNextScan) ==> LoopState() == old(LoopState())
      ensures scanCycle == old(scanCycle) && listening == old(listening)
      ensures scanReturned == old(scanReturned) && deliveries == old(deliveries)
      ensures backCamera == old(backCamera) && frontCamera == old(frontCamera) && currentCamera == old(currentCamera)
      ensures streamActive == old(streamActive) && liveStreams == old(liveStreams)
      ensures previewing == old(previewing)
      ensures previewPresent == old(previewPresent) && stillPresent == old(stillPresent)
    {
      scanError := None;
      if cancelNextScan {
        CancelNextScan();
        scanError := Some(SCAN_CANCELED);
      }
      scanning := false;
      r := Success(CurrentStatus());
    }

    /**
     * pausePreview: with an active stream, clear the pending tick silently,
     * bring the still image to the front and stop the stream, keeping
     * thisScanCycle so that a resume restarts it. Never an error.
     */
    method PausePreview() returns (r: Reply)
      requires Valid()
      modifies this
      ensures Valid() && !streamActive && liveStreams == 0
      ensures r == Success(CurrentStatus())
      ensures old(streamActive) ==> !cancelNextScan && armedTimers == 0 && (stillPresent ==> !previewing)
      ensures !old(streamActive) ==> LoopState() == old(LoopState()) && previewing == old(previewing)
      ensures scanCycle == old(scanCycle) && listening == old(listening)
      ensures scanReturned == old(scanReturned) && deliveries == old(deliveries)
      ensures backCamera == old(backCamera) && frontCamera == old(frontCamera) && currentCamera == old(currentCamera)
      ensures scanning == old(scanning)
      ensures previewPresent == old(previewPresent) && stillPresent == old(stillPresent)
    {
      if streamActive {
        if cancelNextScan {
          CancelNextScan();
        }
        // bringStillToFront
        if stillPresent {
          previewing := false;
        }
        KillActiveMediaStream();
      }
      r := Success(CurrentStatus());
    }

    /**
     * resumePreview: run the paused cycle, if there is one, then show.
     * `posted` and `interval` describe that cycle.
     */
    method ResumePreview(enumeration: Option<seq<MediaDeviceInfo>>, accepts: Oracle, grants: Grants, frameAvailable: bool, intervalOverride: Option<int>)
      returns (r: Reply, ran: bool, posted: bool, interval: int)
      requires Valid()
      modifies this
      ensures Valid()
      ensures ran == old(scanCycle)
      ensures ran ==> armedTimers == 1 && cancelNextScan && timerRunsCycle && posted == frameAvailable
      ensures ran ==> interval == ScanInterval(intervalOverride)
      ensures !ran ==> LoopState() == old(LoopState())
      ensures r.Success? <==> streamActive
      ensures r.Success? ==> r.status == CurrentStatus()
      ensures r.Failure? ==> r.code in {UNEXPECTED_ERROR, BACK_CAMERA_UNAVAILABLE, FRONT_CAMERA_UNAVAILABLE, CAMERA_UNAVAILABLE}
      ensures old(streamActive) ==> r.Success? && liveStreams == old(liveStreams)
      ensures !old(streamActive) && old(backCamera) != NotChosen ==> (streamActive <==> grants(PlaybackRequest(CurrentCameraSlot())))
      ensures old(backCamera) != NotChosen && r.Failure? ==>
        r.code == (if currentCamera != 0 then FRONT_CAMERA_UNAVAILABLE else BACK_CAMERA_UNAVAILABLE)
      ensures old(backCamera) != NotChosen ==> backCamera == old(backCamera) && frontCamera == old(frontCamera)
      ensures old(backCamera) == NotChosen && enumeration.Some? ==> Cameras(backCamera, frontCamera) == Choice(enumeration.value, accepts)
      ensures old(backCamera) == NotChosen && enumeration.None? ==> r == Failure(UNEXPECTED_ERROR)
      ensures !old(streamActive) && backCamera.Chosen? && r.Failure? ==>
        r.code == (if currentCamera != 0 then FRONT_CAMERA_UNAVAILABLE else BACK_CAMERA_UNAVAILABLE)
      ensures old(backCamera) == NotChosen && backCamera == Unavailable ==> r == Failure(CAMERA_UNAVAILABLE)
      ensures previewPresent && stillPresent
      ensures scanCycle == old(scanCycle) && scanning == old(scanning)
      ensures listening == old(listening) && scanReturned == old(scanReturned) && deliveries == old(deliveries)
      ensures currentCamera == old(currentCamera) && previewing == old(previewing)
    {
      ran, posted, interval := false, false, 0;
      if scanCycle {
        ran := true;
        posted, interval := RunCycle(frameAvailable, intervalOverride);
      }
      r := Show(enumeration, accepts, grants);
    }

    /** The preview's `loadeddata` event: bringPreviewToFront. */
    method OnPreviewLoaded()
      requires Valid()
      modifies this
      ensures Valid()
      ensures previewing == (old(previewing) || stillPresent)
      ensures backCamera == old(backCamera) && frontCamera == old(frontCamera) && currentCamera == old(currentCamera)
      ensures streamActive == old(streamActive) && scanning == old(scanning)
      ensures previewPresent == old(previewPresent) && stillPresent == old(stillPresent)
      ensures LoopState() == old(LoopState())
    {
      if stillPresent {
        previewing := true;
      }
    }

    /** enableLight: no browser equivalent. */
    method EnableLight() returns (r: Reply)
      ensures r == Failure(LIGHT_UNAVAILABLE)
    {
      r := Failure(LIGHT_UNAVAILABLE);
    }

    /** disableLight: no browser equivalent. */
    method DisableLight() returns (r: Reply)
      ensures r == Failure(LIGHT_UNAVAILABLE)
    {
      r := Failure(LIGHT_UNAVAILABLE);
    }

    /** openSettings: no browser equivalent. */
    method OpenSettings() returns (r: Reply)
      ensures r == Failure(OPEN_SETTINGS_UNAVAILABLE)
    {
      r := Failure(OPEN_SETTINGS_UNAVAILABLE);
    }

    /** getStatus: never an error. */
    method GetStatus() returns (r: Reply)
      ensures r.Success? && r.status == CurrentStatus()
    {
      r := Success(CurrentStatus());
    }

    /**
     * useCamera: switching to the current index changes nothing. Once
     * initialized, switching to 1 without two real cameras fails with 4 and
     * keeps the index. Otherwise the index changes and, once initialized,
     * the stream is closed and reopened through hide and show.
     */
    method UseCamera(requestedCamera: int, enumeration: Option<seq<MediaDeviceInfo>>, accepts: Oracle, grants: Grants) returns (r: Reply)
      requires Valid()
      modifies this
      ensures Valid()
      ensures requestedCamera == old(currentCamera) ==>
        r == Success(CurrentStatus()) && currentCamera == old(currentCamera) && streamActive == old(streamActive)
      ensures (requestedCamera != old(currentCamera) && old(backCamera) != NotChosen && requestedCamera == 1
        && !CanChangeCamera(old(backCamera), old(frontCamera))) ==>
        r == Failure(FRONT_CAMERA_UNAVAILABLE) && currentCamera == old(currentCamera) && streamActive == old(streamActive)
      ensures requestedCamera != old(currentCamera) && old(backCamera) == NotChosen ==>
        r == Success(CurrentStatus()) && currentCamera == requestedCamera && streamActive == old(streamActive)
      ensures (requestedCamera != old(currentCamera) && old(backCamera) != NotChosen
        && (requestedCamera != 1 || CanChangeCamera(old(backCamera), old(frontCamera)))) ==>
        && currentCamera == requestedCamera
        && (streamActive <==> grants(PlaybackRequest(CurrentCameraSlot())))
        && (r.Success? <==> streamActive)
        && (r.Failure? ==> r.code == (if requestedCamera != 0 then FRONT_CAMERA_UNAVAILABLE else BACK_CAMERA_UNAVAILABLE))
      ensures backCamera == old(backCamera) && frontCamera == old(frontCamera)
      ensures scanning == old(scanning) && previewing == old(previewing)
      ensures previewPresent == old(previewPresent) && stillPresent == old(stillPresent)
      ensures LoopState() == old(LoopState())
    {
      var initialized := IsInitialized(backCamera);
      if requestedCamera != currentCamera {
        if initialized && requestedCamera == 1 && !CanChangeCamera(backCamera, frontCamera) {
          r := Failure(FRONT_CAMERA_UNAVAILABLE);
        } else {
          currentCamera := requestedCamera;
          if initialized {
            var _ := Hide();
            r := Show(enumeration, accepts, grants);
          } else {
            r := Success(CurrentStatus());
          }
        }
      } else {
        r := Success(CurrentStatus());
      }
    }

    /**
     * destroy: cancel the scan, stop the stream, forget both cameras and
     * remove the preview and still elements. Never an error; the scan's
     * error continuation receives SCAN_CANCELED when a tick was pending.
     */
    method Destroy() returns (r: Reply, scanError: Option<nat>)
      requires Valid()
      modifies this
      ensures Valid()
      ensures backCamera == NotChosen && frontCamera == NotChosen
      ensures !streamActive && liveStreams == 0 && !scanning && !cancelNextScan && armedTimers == 0
      ensures !previewPresent && !stillPresent
      ensures scanError == (if old(cancelNextScan) then Some(SCAN_CANCELED) else None)
      ensures r == Success(CurrentStatus())
      ensures r.status.prepared == "0" && r.status.authorized == "0" && r.status.scanning == "0" && r.status.showing == "0"
      ensures currentCamera == old(currentCamera) && previewing == old(previewing)
      ensures scanCycle == old(scanCycle) && listening == old(listening)
      ensures scanReturned == old(scanReturned) && deliveries == old(deliveries)
    {
      var _, err := CancelScan();
      scanError := err;
      if streamActive {
        KillActiveMediaStream();
      }
      ForgetCamerasAndElements();
      r := Success(CurrentStatus());
    }

    /** destroy's reset: both cameras forgotten, the preview and still elements removed. */
    method ForgetCamerasAndElements()
      requires Valid() && !streamActive
      modifies this
      ensures Valid()
      ensures backCamera == NotChosen && frontCamera == NotChosen && !previewPresent && !stillPresent
      ensures currentCamera == old(currentCamera) && streamActive == old(streamActive) && liveStreams == old(liveStreams)
      ensures scanning == old(scanning) && previewing == old(previewing)
      ensures LoopState() == old(LoopState())
    {
      backCamera := NotChosen;
      frontCamera := NotChosen;
      if previewPresent {
        previewPresent := false;
      }
      if stillPresent {
        stillPresent := false;
      }
    }
  }
}

=== FILE: probe.dfy ===
/**
 * StreamProbe: discovering a camera's facing mode, width and height by asking
 * the browser for a stream under one exact constraint at a time.
 *
 * The browser's answer to `getUserMedia(constraint)` is the oracle `accepts`:
 * true when a stream is granted (the probe stops it at once), false when the
 * request is refused.
 */
module Probe {
  import opened Search

  datatype FacingMode = Environment | User

  /** A getUserMedia constraint object: always an exact device id, optionally an exact facing mode, width or height. */
  datatype Constraint = Constraint(
    deviceId: string,
    facingMode: Option<FacingMode>,
    width: Option<nat>,
    height: Option<nat>)

  /** The camera record built from the three searches; `None` is the source's `null` (not detected). */
  datatype CameraSpec = CameraSpec(
    deviceId: string,
    facingMode: Option<FacingMode>,
    width: Option<nat>,
    height: Option<nat>)

  type Oracle = Constraint -> bool

  /** Facing modes, best first. */
  const FacingModes: seq<FacingMode> := [Environment, User]

  /** The sizes probed as exact widths and as exact heights, largest first (2560 down to 240). */
  const StandardSizes: seq<nat> := [
    2560, 2048, 2000, 1920,
    1600, 1536, 1440,
    1280, 1080, 1024, 960, 854, 848,
    720, 640, 600, 540, 512, 480, 320, 240]

  ghost predicate StrictlyDescending(s: seq<nat>) {
    forall i, j :: 0 <= i < j < |s| ==> s[i] > s[j]
  }

  lemma {:induction false} AdjacentDescending(s: seq<nat>)
    requires forall i :: 0 <= i < |s| - 1 ==> s[i] > s[i + 1]
    ensures StrictlyDescending(s)
  {
    if |s| > 1 {
      var t := s[1..];
      AdjacentDescending(t);
      forall i, j | 0 <= i < j < |s|
        ensures s[i] > s[j]
      {
        if i == 0 {
          if j > 1 {
            assert t[0] > t[j - 1];
          }
        } else {
          assert t[i - 1] > t[j - 1];
        }
      }
    }
  }

  /** The standard sizes are strictly descending, so the first accepted one is the largest accepted one. */
  lemma StandardSizesDescending()
    ensures StrictlyDescending(StandardSizes)
  {
    AdjacentDescending(StandardSizes);
  }

  /**
   * getConstraintObj: the exact device id, plus each optional exact field
   * that is given and truthy (a zero width or height is left out, as
   * JavaScript treats 0 as false).
   */
  function ConstraintFor(deviceId: string, facingMode: Option<FacingMode>, width: Option<nat>, height: Option<nat>): (c: Constraint)
    ensures c.deviceId == deviceId && c.facingMode == facingMode
    ensures c.width.Some? <==> width.Some? && width.value != 0
    ensures c.width.Some? ==> c.width == width
    ensures c.height.Some? <==> height.Some? && height.value != 0
    ensures c.height.Some? ==> c.height == height
  {
    Constraint(
      deviceId,
      facingMode,
      if width.Some? && width.value != 0 then width else None,
      if height.Some? && height.value != 0 then height else None)
  }

  /** The facing-mode candidates, `environment` first. */
  function FacingCandidates(deviceId: string): (cs: seq<Constraint>)
    ensures |cs| == 2
    ensures cs[0] == Constraint(deviceId, Some(Environment), None, None)
    ensures cs[1] == Constraint(deviceId, Some(User), None, None)
  {
    seq(|FacingModes|, i requires 0 <= i < |FacingModes| => ConstraintFor(deviceId, Some(FacingModes[i]), None, None))
  }

  /** One exact-width candidate per standard size, largest first. */
  function WidthCandidates(deviceId: string): (cs: seq<Constraint>)
    ensures |cs| == |StandardSizes|
    ensures forall i :: 0 <= i < |cs| ==> cs[i] == Constraint(deviceId, None, Some(StandardSizes[i]), None)
  {
    seq(|StandardSizes|, i requires 0 <= i < |StandardSizes| => ConstraintFor(deviceId, None, Some(StandardSizes[i]), None))
  }

  /** One exact-height candidate per standard size, largest first. */
  function HeightCandidates(deviceId: string): (cs: seq<Constraint>)
    ensures |cs| == |StandardSizes|
    ensures forall i :: 0 <= i < |cs| ==> cs[i] == Constraint(deviceId, None, None, Some(StandardSizes[i]))
  {
    seq(|StandardSizes|, i requires 0 <= i < |StandardSizes| => ConstraintFor(deviceId, None, None, Some(StandardSizes[i])))
  }

  /** The first candidate the browser accepts, or `None` (the source's `null`). */
  function Winner(candidates: seq<Constraint>, accepts: Oracle): Option<Constraint> {
    match FirstIndex(candidates, accepts)
    case Some(i) => Some(candidates[i])
    case None => None
  }

  /** The requests the search makes: every candidate up to and including the first accepted one. */
  function Requests(candidates: seq<Constraint>, accepts: Oracle): seq<Constraint> {
    match FirstIndex(candidates, accepts)
    case Some(i) => candidates[..i + 1]
    case None => candidates
  }

  /**
   * getFirstResolvingConstraint: a fold over the candidates, most preferred first, that
   * skips every candidate once one was accepted. `tried` lists the
   * constraints passed to getUserMedia, in order.
   */
  method FirstResolving(candidates: seq<Constraint>, accepts: Oracle) returns (best: Option<Constraint>, tried: seq<Constraint>)
    ensures best == Winner(candidates, accepts)
    ensures tried == Requests(candidates, accepts)
    ensures best.Some? ==> best.value in candidates && accepts(best.value) && tried[|tried| - 1] == best.value
    ensures best.None? <==> forall c :: c in candidates ==> !accepts(c)
  {
    ghost var first := FirstIndex(candidates, accepts);
    var found := false;
    var nextConstraint: Option<Constraint> := None;
    tried := [];
    for k := 0 to |candidates|
      invariant !found ==> tried == candidates[..k]
      invariant !found ==> forall j :: 0 <= j < k ==> !accepts(candidates[j])
      invariant found ==> first.Some? && first.value < k
      invariant found ==> nextConstraint == Some(candidates[first.value]) && tried == candidates[..first.value + 1]
    {
      if !found {
        nextConstraint := Some(candidates[k]);
        tried := tried + [candidates[k]];
        if accepts(candidates[k]) {
          found := true;
        }
      }
    }
    if found {
      best := nextConstraint;
    } else {
      best := None;
    }
  }

  /** The record getCameraSpecsById builds from the three winners. */
  function ProbeSpec(deviceId: string, accepts: Oracle): (spec: CameraSpec)
    ensures spec.deviceId == deviceId
    ensures spec.facingMode.Some? ==> accepts(Constraint(deviceId, spec.facingMode, None, None))
    ensures spec.width.Some? ==> spec.width.value in StandardSizes && accepts(Constraint(deviceId, None, spec.width, None))
    ensures spec.height.Some? ==> spec.height.value in StandardSizes && accepts(Constraint(deviceId, None, None, spec.height))
  {
    var f := Winner(FacingCandidates(deviceId), accepts);
    var w := Winner(WidthCandidates(deviceId), accepts);
    var h := Winner(HeightCandidates(deviceId), accepts);
    CameraSpec(
      deviceId,
      if f.None? then None else f.value.facingMode,
      if w.None? then None else w.value.width,
      if h.None? then None else h.value.height)
  }

  /** getCameraSpecsById: facing mode, then width, then height, each by its own search. */
  method GetCameraSpecsById(deviceId: string, accepts: Oracle) returns (spec: CameraSpec)
    ensures spec == ProbeSpec(deviceId, accepts)
    ensures spec.deviceId == deviceId
  {
    var facingModeSpecs, _ := FirstResolving(FacingCandidates(deviceId), accepts);
    var widthSpecs, _ := FirstResolving(WidthCandidates(deviceId), accepts);
    var heightSpecs, _ := FirstResolving(HeightCandidates(deviceId), accepts);
    spec := CameraSpec(
      deviceId,
      if facingModeSpecs.None? then None else facingModeSpecs.value.facingMode,
      if widthSpecs.None? then None else widthSpecs.value.width,
      if heightSpecs.None? then None else heightSpecs.value.height);
  }

  /** The recorded facing mode is `environment` whenever the device accepts it, `user` only when it refuses `environment`. */
  lemma ProbeFacingMode(deviceId: string, accepts: Oracle)
    ensures var env, user := ConstraintFor(deviceId, Some(Environment), None, None), ConstraintFor(deviceId, Some(User), None, None);
      && (ProbeSpec(deviceId, accepts).facingMode == Some(Environment) <==> accepts(env))
      && (ProbeSpec(deviceId, accepts).facingMode == Some(User) <==> !accepts(env) && accepts(user))
      && (ProbeSpec(deviceId, accepts).facingMode == None <==> !accepts(env) && !accepts(user))
  {
    var cands := FacingCandidates(deviceId);
    assert cands[0] == ConstraintFor(deviceId, Some(Environment), None, None);
    assert cands[1] == ConstraintFor(deviceId, Some(User), None, None);
    assert |cands| == 2;
  }

  /** The size the search records is the first accepted in `sizes`; with `sizes` descending, it is the largest accepted. */
  lemma {:induction false} FirstAcceptedIsLargest(sizes: seq<nat>, candidates: seq<Constraint>, make: nat -> Constraint, accepts: Oracle)
    requires StrictlyDescending(sizes)
    requires |candidates| == |sizes|
    requires forall i :: 0 <= i < |sizes| ==> candidates[i] == make(sizes[i])
    ensures FirstIndex(candidates, accepts).Some? ==>
      var n := sizes[FirstIndex(candidates, accepts).value];
      && accepts(make(n))
      && forall s :: s in sizes && s > n ==> !accepts(make(s))
    ensures FirstIndex(candidates, accepts).None? <==> forall s :: s in sizes ==> !accepts(make(s))
  {
    var first := FirstIndex(candidates, accepts);
    if first.Some? {
      var n := sizes[first.value];
      forall s | s in sizes && s > n
        ensures !accepts(make(s))
      {
        var j :| 0 <= j < |sizes| && sizes[j] == s;
        assert j < first.value;
      }
    } else {
      forall s | s in sizes
        ensures !accepts(make(s))
      {
        var j :| 0 <= j < |sizes| && sizes[j] == s;
        assert candidates[j] == make(s);
      }
    }
  }

  function WidthConstraint(deviceId: string, width: nat): Constraint {
    ConstraintFor(deviceId, None, Some(width), None)
  }

  function HeightConstraint(deviceId: string, height: nat): Constraint {
    ConstraintFor(deviceId, None, None, Some(height))
  }

  /** The recorded width is the largest standard size the device accepts as an exact width, or `None` when it accepts none. */
  lemma ProbeWidthIsLargestAccepted(deviceId: string, accepts: Oracle)
    ensures var w := ProbeSpec(deviceId, accepts).width;
      && (w.None? <==> forall s :: s in StandardSizes ==> !accepts(WidthConstraint(deviceId, s)))
      && (w.Some? ==> w.value in StandardSizes && accepts(WidthConstraint(deviceId, w.value)))
      && (w.Some? ==> forall s :: s in StandardSizes && s > w.value ==> !accepts(WidthConstraint(deviceId, s)))
  {
    StandardSizesDescending();
    var make := (n: nat) => WidthConstraint(deviceId, n);
    FirstAcceptedIsLargest(StandardSizes, WidthCandidates(deviceId), make, accepts);
  }

  /** The same for the height search. */
  lemma ProbeHeightIsLargestAccepted(deviceId: string, accepts: Oracle)
    ensures var h := ProbeSpec(deviceId, accepts).height;
      && (h.None? <==> forall s :: s in StandardSizes ==> !accepts(HeightConstraint(deviceId, s)))
      && (h.Some? ==> h.value in StandardSizes && accepts(HeightConstraint(deviceId, h.value)))
      && (h.Some? ==> forall s :: s in StandardSizes && s > h.value ==> !accepts(HeightConstraint(deviceId, s)))
  {
    StandardSizesDescending();
    var make := (n: nat) => HeightConstraint(deviceId, n);
    FirstAcceptedIsLargest(StandardSizes, HeightCandidates(deviceId), make, accepts);
  }
}

=== FILE: search.dfy ===
/**
 * A first-match linear search over a sequence: the shape shared by the
 * constraint probe (first constraint the browser accepts) and by the
 * back-camera choice (first camera facing the environment).
 */
module Search {

  datatype Option<+T> = None | Some(value: T)

  /** The index of the first element of `s` that satisfies `p`, if there is one. */
  function FirstIndex<T>(s: seq<T>, p: T -> bool): (r: Option<nat>)
    ensures r.Some? ==> r.value < |s| && p(s[r.value])
    ensures r.Some? ==> forall j :: 0 <= j < r.value ==> !p(s[j])
    ensures r.None? <==> forall j :: 0 <= j < |s| ==> !p(s[j])
    decreases |s|
  {
    if s == [] then None
    else if p(s[0]) then Some(0)
    else
      match FirstIndex(s[1..], p)
      case None => None
      case Some(i) => Some(i + 1)
  }
}

=== FILE: selection.dfy ===
/**
 * CameraSelector: enumerate the video inputs, probe each one, keep those whose
 * width and height were detected, rank them by width and assign a back and a
 * front camera.
 */
module Selection {
  import opened Search
  import opened Probe

  datatype DeviceKind = VideoInput | AudioInput | AudioOutput

  /** The part of a MediaDeviceInfo the selector reads. */
  datatype MediaDeviceInfo = MediaDeviceInfo(kind: DeviceKind, deviceId: string)

  /** A camera role: not yet chosen (`null`), unavailable (`false`) or a camera. */
  datatype Slot = NotChosen | Unavailable | Chosen(camera: CameraSpec)

  /** The `{backCamera, frontCamera}` pair chooseCameras resolves to. */
  datatype Cameras = Cameras(back: Slot, front: Slot)

  /** The device ids of the video inputs, in enumeration order. */
  function VideoInputIds(devices: seq<MediaDeviceInfo>): (ids: seq<string>)
    ensures |ids| <= |devices|
    ensures forall id :: id in ids <==> exists d :: d in devices && d.kind == VideoInput && d.deviceId == id
  {
    if devices == [] then []
    else
      var rest := VideoInputIds(devices[1..]);
      assert forall d :: d in devices[1..] ==> d in devices;
      assert forall d :: d in devices ==> d == devices[0] || d in devices[1..];
      if devices[0].kind == VideoInput then [devices[0].deviceId] + rest else rest
  }

  /** Promise.all over the per-device probes: the probes are independent, so this is a map. */
  function Probes(ids: seq<string>, accepts: Oracle): (specs: seq<CameraSpec>)
    ensures |specs| == |ids|
    ensures forall i :: 0 <= i < |ids| ==> specs[i] == ProbeSpec(ids[i], accepts)
  {
    seq(|ids|, i requires 0 <= i < |ids| => ProbeSpec(ids[i], accepts))
  }

  predicate Usable(c: CameraSpec) {
    c.width.Some? && c.height.Some?
  }

  predicate IsEnvironment(c: CameraSpec) {
    c.facingMode == Some(Environment)
  }

  /** The ranking key; only applied to usable cameras. */
  function Width(c: CameraSpec): nat {
    if c.width.Some? then c.width.value else 0
  }

  ghost predicate DistinctIds(s: seq<CameraSpec>) {
    forall i, j :: 0 <= i < |s| && 0 <= j < |s| && i != j ==> s[i].deviceId != s[j].deviceId
  }

  ghost predicate SortedByWidth(s: seq<CameraSpec>) {
    forall i, j :: 0 <= i < j < |s| ==> Width(s[i]) >= Width(s[j])
  }

  /** The cameras whose width and height were both detected, in their original order. */
  function FilterUsable(specs: seq<CameraSpec>): (r: seq<CameraSpec>)
    ensures forall c :: c in r <==> c in specs && Usable(c)
    ensures |r| <= |specs|
  {
    if specs == [] then []
    else
      assert specs == [specs[0]] + specs[1..];
      if Usable(specs[0]) then [specs[0]] + FilterUsable(specs[1..]) else FilterUsable(specs[1..])
  }

  /** Inserts `c` before the first camera no wider than it (so `c` stays ahead of later cameras of equal width). */
  function Insert(c: CameraSpec, t: seq<CameraSpec>): (r: seq<CameraSpec>)
    ensures multiset(r) == multiset(t) + multiset{c}
    ensures |r| == |t| + 1
  {
    if t == [] || Width(c) >= Width(t[0]) then [c] + t
    else
      assert t == [t[0]] + t[1..];
      [t[0]] + Insert(c, t[1..])
  }

  /** The cameras ranked from the widest to the narrowest (sorted and a permutation: see the lemmas below). */
  function RankByWidth(s: seq<CameraSpec>): (r: seq<CameraSpec>)
    ensures |r| == |s|
  {
    if s == [] then [] else Insert(s[0], RankByWidth(s[1..]))
  }

  /** Ranking only reorders: the result holds the same cameras, each as often. */
  lemma {:induction false} RankByWidthPermutes(s: seq<CameraSpec>)
    ensures multiset(RankByWidth(s)) == multiset(s)
  {
    if s != [] {
      RankByWidthPermutes(s[1..]);
      assert s == [s[0]] + s[1..];
    }
  }

  lemma DistinctTail(s: seq<CameraSpec>)
    requires |s| > 0 && DistinctIds(s)
    ensures DistinctIds(s[1..])
    ensures forall x :: x in s[1..] ==> x.deviceId != s[0].deviceId
  {
    var t := s[1..];
    forall i, j | 0 <= i < |t| && 0 <= j < |t| && i != j
      ensures t[i].deviceId != t[j].deviceId
    {
      assert t[i] == s[i + 1] && t[j] == s[j + 1];
    }
    forall x | x in t
      ensures x.deviceId != s[0].deviceId
    {
      var k :| 0 <= k < |t| && t[k] == x;
      assert s[k + 1] == x;
    }
  }

  lemma PrependDistinct(c: CameraSpec, s: seq<CameraSpec>)
    requires DistinctIds(s)
    requires forall x :: x in s ==> x.deviceId != c.deviceId
    ensures DistinctIds([c] + s)
  {
    var r := [c] + s;
    forall i, j | 0 <= i < |r| && 0 <= j < |r| && i != j
      ensures r[i].deviceId != r[j].deviceId
    {
      if i == 0 {
        assert r[j] == s[j - 1] && r[j] in s;
      } else if j == 0 {
        assert r[i] == s[i - 1] && r[i] in s;
      } else {
        assert r[i] == s[i - 1] && r[j] == s[j - 1];
      }
    }
  }

  /** Filtering keeps the device ids distinct. */
  lemma {:induction false} FilterUsableDistinct(specs: seq<CameraSpec>)
    requires DistinctIds(specs)
    ensures DistinctIds(FilterUsable(specs))
  {
    if specs != [] {
      DistinctTail(specs);
      FilterUsableDistinct(specs[1..]);
      if Usable(specs[0]) {
        PrependDistinct(specs[0], FilterUsable(specs[1..]));
      }
    }
  }

  lemma SortedTail(s: seq<CameraSpec>)
    requires |s| > 0 && SortedByWidth(s)
    ensures SortedByWidth(s[1..])
    ensures forall x :: x in s[1..] ==> Width(x) <= Width(s[0])
  {
    var t := s[1..];
    forall i, j | 0 <= i < j < |t|
      ensures Width(t[i]) >= Width(t[j])
    {
      assert t[i] == s[i + 1] && t[j] == s[j + 1];
    }
    forall x | x in t
      ensures Width(x) <= Width(s[0])
    {
      var k :| 0 <= k < |t| && t[k] == x;
      assert s[k + 1] == x;
    }
  }

  lemma PrependSorted(c: CameraSpec, s: seq<CameraSpec>)
    requires SortedByWidth(s)
    requires forall x :: x in s ==> Width(x) <= Width(c)
    ensures SortedByWidth([c] + s)
  {
    var r := [c] + s;
    forall i, j | 0 <= i < j < |r|
      ensures Width(r[i]) >= Width(r[j])
    {
      if i == 0 {
        assert r[j] == s[j - 1] && r[j] in s;
      } else {
        assert r[i] == s[i - 1] && r[j] == s[j - 1];
      }
    }
  }

  lemma InsertMembers(c: CameraSpec, t: seq<CameraSpec>)
    ensures forall x :: x in Insert(c, t) <==> x == c || x in t
  {
    var r := Insert(c, t);
    forall x
      ensures x in r <==> x == c || x in t
    {
      assert x in r <==> x in multiset(r);
      assert x in t <==> x in multiset(t);
    }
  }

  /** Inserting into a sorted ranking keeps it sorted. */
  lemma {:induction false} InsertSorted(c: CameraSpec, t: seq<CameraSpec>)
    requires SortedByWidth(t)
    ensures SortedByWidth(Insert(c, t))
  {
    if t == [] || Width(c) >= Width(t[0]) {
      if t != [] {
        SortedTail(t);
      }
      PrependSorted(c, t);
    } else {
      SortedTail(t);
      InsertSorted(c, t[1..]);
      InsertMembers(c, t[1..]);
      PrependSorted(t[0], Insert(c, t[1..]));
    }
  }

  /** Inserting a camera with a fresh device id keeps the ids distinct. */
  lemma {:induction false} InsertDistinct(c: CameraSpec, t: seq<CameraSpec>)
    requires DistinctIds(t)
    requires forall x :: x in t ==> x.deviceId != c.deviceId
    ensures DistinctIds(Insert(c, t))
  {
    if t == [] || Width(c) >= Width(t[0]) {
      PrependDistinct(c, t);
    } else {
      DistinctTail(t);
      InsertDistinct(c, t[1..]);
      InsertMembers(c, t[1..]);
      PrependDistinct(t[0], Insert(c, t[1..]));
    }
  }

  /** The ranking is sorted by non-increasing width. */
  lemma {:induction false} RankByWidthSorted(s: seq<CameraSpec>)
    ensures SortedByWidth(RankByWidth(s))
  {
    if s != [] {
      RankByWidthSorted(s[1..]);
      InsertSorted(s[0], RankByWidth(s[1..]));
    }
  }

  /** Ranking keeps the device ids distinct. */
  lemma {:induction false} RankByWidthDistinct(s: seq<CameraSpec>)
    requires DistinctIds(s)
    ensures DistinctIds(RankByWidth(s))
  {
    if s != [] {
      DistinctTail(s);
      RankByWidthDistinct(s[1..]);
      RankByWidthPermutes(s[1..]);
      var rest := RankByWidth(s[1..]);
      forall x | x in rest
        ensures x.deviceId != s[0].deviceId
      {
        assert x in multiset(rest);
      }
      InsertDistinct(s[0], rest);
    }
  }

  /** The ranked list with the entry at `i` spliced out. */
  function Without(s: seq<CameraSpec>, i: nat): (r: seq<CameraSpec>)
    requires i < |s|
    ensures |r| == |s| - 1
    ensures forall k :: 0 <= k < |r| ==> r[k] == s[if k < i then k else k + 1]
  {
    s[..i] + s[i + 1..]
  }

  /** The position of the back camera: the first environment camera, else the first camera, else none. */
  function BackIndex(ranked: seq<CameraSpec>): Option<nat> {
    match FirstIndex(ranked, IsEnvironment)
    case Some(i) => Some(i)
    case None => if |ranked| > 0 then Some(0) else None
  }

  /** What is left for the front camera once the back camera is spliced out. */
  function Remaining(ranked: seq<CameraSpec>): seq<CameraSpec> {
    match BackIndex(ranked)
    case Some(i) => if i < |ranked| then Without(ranked, i) else ranked
    case None => ranked
  }

  /** The greedy back/front assignment over a ranked list. */
  function RoleAssignment(ranked: seq<CameraSpec>): (cams: Cameras)
    ensures cams.back != NotChosen && cams.front != NotChosen
    ensures cams.back == Unavailable <==> ranked == []
    ensures cams.front == Unavailable <==> |ranked| <= 1
  {
    var b := BackIndex(ranked);
    var rest := Remaining(ranked);
    Cameras(
      if b.Some? && b.value < |ranked| then Chosen(ranked[b.value]) else Unavailable,
      if |rest| > 0 then Chosen(rest[0]) else Unavailable)
  }

  /**
   * The back/front assignment as the source performs it: a loop that splices
   * the first environment camera out of the ranked array, else splices out
   * the first camera, then takes the first entry left as the front camera.
   */
  method AssignRoles(bestToWorst: seq<CameraSpec>) returns (cams: Cameras)
    ensures cams == RoleAssignment(bestToWorst)
  {
    var ranked := bestToWorst;
    var backCamera := NotChosen;
    var frontCamera := NotChosen;
    var i := 0;
    while i < |ranked|
      invariant 0 <= i <= |ranked|
      invariant ranked == bestToWorst && backCamera == NotChosen
      invariant forall j :: 0 <= j < i ==> !IsEnvironment(ranked[j])
    {
      if IsEnvironment(ranked[i]) {
        backCamera := Chosen(ranked[i]);
        ranked := ranked[..i] + ranked[i + 1..];
        break;
      }
      i := i + 1;
    }
    if backCamera == NotChosen {
      if |ranked| > 0 {
        backCamera := Chosen(ranked[0]);
        ranked := ranked[..0] + ranked[1..];
      } else {
        backCamera := Unavailable;
      }
    }
    if |ranked| > 0 {
      frontCamera := Chosen(ranked[0]);
    } else {
      frontCamera := Unavailable;
    }
    cams := Cameras(backCamera, frontCamera);
  }

  lemma WithoutMultiset(s: seq<CameraSpec>, i: nat)
    requires i < |s|
    ensures multiset(Without(s, i)) == multiset(s) - multiset{s[i]}
  {
    assert s == s[..i] + [s[i]] + s[i + 1..];
  }

  lemma WithoutSorted(s: seq<CameraSpec>, i: nat)
    requires i < |s| && SortedByWidth(s)
    ensures SortedByWidth(Without(s, i))
  {
  }

  /**
   * When the ranking holds an environment camera, the back camera is the
   * first of them, and on a ranking sorted by width no environment camera is
   * wider.
   */
  lemma BackPrefersEnvironment(ranked: seq<CameraSpec>)
    requires exists c :: c in ranked && IsEnvironment(c)
    ensures var back := RoleAssignment(ranked).back;
      && back.Chosen? && IsEnvironment(back.camera)
      && back == Chosen(ranked[FirstIndex(ranked, IsEnvironment).value])
      && (SortedByWidth(ranked) ==> forall c :: c in ranked && IsEnvironment(c) ==> Width(c) <= Width(back.camera))
  {
    var first := FirstIndex(ranked, IsEnvironment);
    assert first.Some?;
    if SortedByWidth(ranked) {
      forall c | c in ranked && IsEnvironment(c)
        ensures Width(c) <= Width(ranked[first.value])
      {
        var j :| 0 <= j < |ranked| && ranked[j] == c;
        assert first.value <= j;
      }
    }
  }

  /** Without an environment camera, the back camera is the first, hence widest, camera of the ranking. */
  lemma BackIsWidestWithoutEnvironment(ranked: seq<CameraSpec>)
    requires ranked != []
    requires forall c :: c in ranked ==> !IsEnvironment(c)
    ensures RoleAssignment(ranked).back == Chosen(ranked[0])
    ensures SortedByWidth(ranked) ==> forall c :: c in ranked ==> Width(c) <= Width(ranked[0])
  {
    assert FirstIndex(ranked, IsEnvironment).None? by {
      assert forall j :: 0 <= j < |ranked| ==> ranked[j] in ranked;
    }
  }

  /**
   * The front camera is the first entry left once the back camera is spliced
   * out: a different position of the ranking, and on a sorted ranking the
   * widest camera other than the back camera.
   */
  lemma FrontIsNextBest(ranked: seq<CameraSpec>)
    requires |ranked| >= 2
    ensures BackIndex(ranked).Some? && BackIndex(ranked).value < |ranked|
    ensures var b := BackIndex(ranked).value;
      && RoleAssignment(ranked).back == Chosen(ranked[b])
      && RoleAssignment(ranked).front == Chosen(ranked[if b == 0 then 1 else 0])
      && multiset(Remaining(ranked)) == multiset(ranked) - multiset{ranked[b]}
      && (SortedByWidth(ranked) ==> forall j :: 0 <= j < |ranked| && j != b ==> Width(ranked[j]) <= Width(RoleAssignment(ranked).front.camera))
  {
    var b := BackIndex(ranked).value;
    WithoutMultiset(ranked, b);
    var rest := Without(ranked, b);
    if SortedByWidth(ranked) {
      forall j | 0 <= j < |ranked| && j != b
        ensures Width(ranked[j]) <= Width(rest[0])
      {
        if j < b {
          assert rest[j] == ranked[j];
        } else {
          assert rest[j - 1] == ranked[j];
        }
      }
    }
  }

  /** Back and front never name the same device when the ranking's device ids are distinct. */
  lemma RolesAreDistinct(ranked: seq<CameraSpec>)
    requires DistinctIds(ranked)
    ensures var cams := RoleAssignment(ranked);
      cams.front.Chosen? ==> cams.back.Chosen? && cams.back.camera.deviceId != cams.front.camera.deviceId
  {
    if |ranked| >= 2 {
      FrontIsNextBest(ranked);
    }
  }

  /**
   * What chooseCameras promises of its pick from `pool`, whatever the order of
   * cameras of equal width: the back camera is an environment camera no
   * narrower than any other environment camera, or, without one, a camera no
   * narrower than any other; the front camera is another entry, no narrower
   * than any camera left once the back camera is taken out.
   */
  ghost predicate SelectionRules(pool: seq<CameraSpec>, back: Slot, front: Slot) {
    BackRule(pool, back) && FrontRule(pool, back, front)
  }

  /** The back-camera half of `SelectionRules`. */
  ghost predicate BackRule(pool: seq<CameraSpec>, back: Slot) {
    && back != NotChosen
    && (back == Unavailable <==> pool == [])
    && (back.Chosen? ==>
          && back.camera in pool
          && (forall c :: c in pool && IsEnvironment(c) ==> IsEnvironment(back.camera) && Width(c) <= Width(back.camera))
          && (!IsEnvironment(back.camera) ==> forall c :: c in pool ==> Width(c) <= Width(back.camera)))
  }

  /** The front-camera half of `SelectionRules`. */
  ghost predicate FrontRule(pool: seq<CameraSpec>, back: Slot, front: Slot) {
    && front != NotChosen
    && (front == Unavailable <==> |pool| <= 1)
    && (front.Chosen? ==>
          && back.Chosen?
          && front.camera in multiset(pool) - multiset{back.camera}
          && forall c :: c in multiset(pool) - multiset{back.camera} ==> Width(c) <= Width(front.camera))
  }

  /** chooseCameras' answer for a device list it enumerated: the roles assigned over the ranked usable cameras. */
  function Choice(devices: seq<MediaDeviceInfo>, accepts: Oracle): (cams: Cameras)
    ensures cams.back != NotChosen && cams.front != NotChosen
    ensures cams.front.Chosen? ==> cams.back.Chosen?
  {
    RoleAssignment(RankByWidth(Pool(devices, accepts)))
  }

  /** The cameras the selector ranks: the probed video inputs whose width and height were both detected. */
  function Pool(devices: seq<MediaDeviceInfo>, accepts: Oracle): seq<CameraSpec> {
    FilterUsable(Probes(VideoInputIds(devices), accepts))
  }

  ghost predicate DistinctStrings(ids: seq<string>) {
    forall i, j :: 0 <= i < |ids| && 0 <= j < |ids| && i != j ==> ids[i] != ids[j]
  }

  /**
   * chooseCameras. `enumeration` is the outcome of enumerateDevices (`None`
   * when that promise rejects, which rejects the whole chain); every
   * per-device probe is answered by `accepts`.
   */
  method ChooseCameras(enumeration: Option<seq<MediaDeviceInfo>>, accepts: Oracle) returns (result: Option<Cameras>)
    ensures result.None? <==> enumeration.None?
    ensures enumeration.Some? ==> result == Some(Choice(enumeration.value, accepts))
  {
    if enumeration.None? {
      return None;
    }
    var videoDeviceIds := VideoInputIds(enumeration.value);
    var cameraSpecsArray := ProbeAll(videoDeviceIds, accepts);
    var pool := FilterUsable(cameraSpecsArray);
    var bestToWorst := RankByWidth(pool);
    var cams := AssignRoles(bestToWorst);
    result := Some(cams);
  }

  /** The chosen roles follow the selection rules over the usable cameras. */
  lemma ChoiceFollowsRules(devices: seq<MediaDeviceInfo>, accepts: Oracle)
    ensures SelectionRules(Pool(devices, accepts), Choice(devices, accepts).back, Choice(devices, accepts).front)
  {
    var pool := Pool(devices, accepts);
    RankByWidthSorted(pool);
    RankByWidthPermutes(pool);
    ChosenFromPool(pool, RankByWidth(pool));
  }

  /** With distinct device ids, the back and front roles go to different devices. */
  lemma ChoiceRolesDistinct(devices: seq<MediaDeviceInfo>, accepts: Oracle)
    requires DistinctStrings(VideoInputIds(devices))
    ensures var cams := Choice(devices, accepts);
      cams.front.Chosen? ==> cams.back.Chosen? && cams.back.camera.deviceId != cams.front.camera.deviceId
  {
    var ids := VideoInputIds(devices);
    var specs := Probes(ids, accepts);
    var pool := FilterUsable(specs);
    ProbesDistinct(ids, accepts);
    FilterUsableDistinct(specs);
    RankByWidthDistinct(pool);
    RolesAreDistinct(RankByWidth(pool));
  }

  /**
   * The distinct-ids requirement above is needed: two video inputs that
   * report the same id, probed as usable, fill both roles with that one
   * device.
   */
  lemma DuplicateIdsShareDevice(id: string, accepts: Oracle)
    requires Usable(ProbeSpec(id, accepts))
    ensures var cams := Choice([MediaDeviceInfo(VideoInput, id), MediaDeviceInfo(VideoInput, id)], accepts);
      && cams.back.Chosen? && cams.front.Chosen?
      && cams.back.camera.deviceId == id && cams.front.camera.deviceId == id
  {
    var devices := [MediaDeviceInfo(VideoInput, id), MediaDeviceInfo(VideoInput, id)];
    var p := ProbeSpec(id, accepts);
    DuplicatePool(id, accepts);
    ChoiceFollowsRules(devices, accepts);
    var cams := Choice(devices, accepts);
    assert cams.back.camera in [p, p];
    assert cams.front.camera in multiset([p, p]);
  }

  /** Two inputs reporting the same usable id leave two copies of its probe in the pool. */
  lemma DuplicatePool(id: string, accepts: Oracle)
    requires Usable(ProbeSpec(id, accepts))
    ensures Pool([MediaDeviceInfo(VideoInput, id), MediaDeviceInfo(VideoInput, id)], accepts)
      == [ProbeSpec(id, accepts), ProbeSpec(id, accepts)]
  {
    var p := ProbeSpec(id, accepts);
    DuplicateIds(id);
    assert Probes([id, id], accepts) == [p, p];
    KeepsUsablePair(p);
  }

  lemma KeepsUsablePair(p: CameraSpec)
    requires Usable(p)
    ensures FilterUsable([p, p]) == [p, p]
  {
    var specs := [p, p];
    assert specs[1..] == [p] && specs[1..][1..] == [];
  }

  lemma DuplicateIds(id: string)
    ensures VideoInputIds([MediaDeviceInfo(VideoInput, id), MediaDeviceInfo(VideoInput, id)]) == [id, id]
  {
    var devices := [MediaDeviceInfo(VideoInput, id), MediaDeviceInfo(VideoInput, id)];
    assert devices[1..] == [devices[1]] && devices[1..][1..] == [];
  }

  /** An instance: every request granted and both inputs reporting the empty id. */
  lemma EmptyIdsShareDevice()
    ensures var cams := Choice([MediaDeviceInfo(VideoInput, ""), MediaDeviceInfo(VideoInput, "")], (c: Constraint) => true);
      cams.front.Chosen? && cams.back.Chosen? && cams.back.camera.deviceId == cams.front.camera.deviceId
  {
    var accepts := (c: Constraint) => true;
    ProbeWidthIsLargestAccepted("", accepts);
    ProbeHeightIsLargestAccepted("", accepts);
    assert 2560 in StandardSizes && accepts(WidthConstraint("", 2560)) && accepts(HeightConstraint("", 2560));
    DuplicateIdsShareDevice("", accepts);
  }

  /** The per-device probes, one after the other (the source starts them together and waits for all). */
  method ProbeAll(videoDeviceIds: seq<string>, accepts: Oracle) returns (cameraSpecsArray: seq<CameraSpec>)
    ensures cameraSpecsArray == Probes(videoDeviceIds, accepts)
  {
    cameraSpecsArray := [];
    for k := 0 to |videoDeviceIds|
      invariant cameraSpecsArray == Probes(videoDeviceIds[..k], accepts)
    {
      var spec := GetCameraSpecsById(videoDeviceIds[k], accepts);
      ProbesExtend(videoDeviceIds, k, accepts);
      cameraSpecsArray := cameraSpecsArray + [spec];
    }
    assert videoDeviceIds[..|videoDeviceIds|] == videoDeviceIds;
  }

  /** Probing one more id appends that id's probe. */
  lemma ProbesExtend(ids: seq<string>, k: nat, accepts: Oracle)
    requires k < |ids|
    ensures Probes(ids[..k + 1], accepts) == Probes(ids[..k], accepts) + [ProbeSpec(ids[k], accepts)]
  {
    assert ids[..k + 1] == ids[..k] + [ids[k]];
  }


  lemma ProbesDistinct(ids: seq<string>, accepts: Oracle)
    requires DistinctStrings(ids)
    ensures DistinctIds(Probes(ids, accepts))
  {
    var specs := Probes(ids, accepts);
    forall i, j | 0 <= i < |specs| && 0 <= j < |specs| && i != j
      ensures specs[i].deviceId != specs[j].deviceId
    {
      assert specs[i].deviceId == ids[i] && specs[j].deviceId == ids[j];
    }
  }

  /** The role properties of a sorted permutation of the pool, restated over the pool itself (independent of tie order). */
  lemma ChosenFromPool(pool: seq<CameraSpec>, ranked: seq<CameraSpec>)
    requires multiset(ranked) == multiset(pool) && SortedByWidth(ranked)
    ensures SelectionRules(pool, RoleAssignment(ranked).back, RoleAssignment(ranked).front)
  {
    BackFromPool(pool, ranked);
    FrontFromPool(pool, ranked);
  }

  /** Two sequences with the same multiset have the same length and the same members. */
  lemma SameMembers(pool: seq<CameraSpec>, ranked: seq<CameraSpec>)
    requires multiset(ranked) == multiset(pool)
    ensures |ranked| == |pool|
    ensures forall c :: c in ranked <==> c in pool
  {
    assert |ranked| == |pool| by {
      assert |multiset(ranked)| == |multiset(pool)|;
    }
    forall c
      ensures c in ranked <==> c in pool
    {
      assert c in ranked <==> c in multiset(ranked);
      assert c in pool <==> c in multiset(pool);
    }
  }

  lemma BackFromPool(pool: seq<CameraSpec>, ranked: seq<CameraSpec>)
    requires multiset(ranked) == multiset(pool) && SortedByWidth(ranked)
    ensures BackRule(pool, RoleAssignment(ranked).back)
  {
    SameMembers(pool, ranked);
    if exists c :: c in ranked && IsEnvironment(c) {
      BackPrefersEnvironment(ranked);
    } else if ranked != [] {
      BackIsWidestWithoutEnvironment(ranked);
    }
  }

  lemma FrontFromPool(pool: seq<CameraSpec>, ranked: seq<CameraSpec>)
    requires multiset(ranked) == multiset(pool) && SortedByWidth(ranked)
    ensures FrontRule(pool, RoleAssignment(ranked).back, RoleAssignment(ranked).front)
  {
    var cams := RoleAssignment(ranked);
    assert |ranked| == |pool| by {
      assert |multiset(ranked)| == |multiset(pool)|;
    }
    if |ranked| >= 2 {
      FrontIsNextBest(ranked);
      var b := BackIndex(ranked).value;
      var rest := Remaining(ranked);
      assert rest == Without(ranked, b);
      WithoutSorted(ranked, b);
      assert cams.front.camera == rest[0];
      assert multiset(pool) - multiset{cams.back.camera} == multiset(rest);
      HeadIsWidest(rest);
    }
  }

  /** The first camera of a ranking sorted by width is no narrower than any camera in it. */
  lemma HeadIsWidest(s: seq<CameraSpec>)
    requires |s| > 0 && SortedByWidth(s)
    ensures s[0] in multiset(s)
    ensures forall c :: c in multiset(s) ==> Width(c) <= Width(s[0])
  {
    forall c | c in multiset(s)
      ensures Width(c) <= Width(s[0])
    {
      assert c in s;
      var k :| 0 <= k < |s| && s[k] == c;
      if k > 0 {
        assert Width(s[0]) >= Width(s[k]);
      }
    }
  }

}

=== FILE: status.dfy ===
/**
 * StatusModel: the status snapshot every public operation reports, a pure
 * function of the controller's state, and the numeric error codes.
 */
module StatusModel {
  import opened Selection

  const UNEXPECTED_ERROR: nat := 0
  const BACK_CAMERA_UNAVAILABLE: nat := 3
  const FRONT_CAMERA_UNAVAILABLE: nat := 4
  const CAMERA_UNAVAILABLE: nat := 5
  const SCAN_CANCELED: nat := 6
  const LIGHT_UNAVAILABLE: nat := 7
  const OPEN_SETTINGS_UNAVAILABLE: nat := 8

  /** Every field is a string: '1'/'0' for flags, the decimal index for the current camera. */
  datatype Status = Status(
    authorized: string,
    denied: string,
    restricted: string,
    prepared: string,
    scanning: string,
    previewing: string,
    showing: string,
    lightEnabled: string,
    canOpenSettings: string,
    canEnableLight: string,
    canChangeCamera: string,
    currentCamera: string)

  /** What a success or an error continuation receives. */
  datatype Reply = Success(status: Status) | Failure(code: nat)

  function Flag(b: bool): (s: string)
    ensures s == "1" || s == "0"
    ensures s == "1" <==> b
  {
    if b then "1" else "0"
  }

  function DigitChar(d: nat): (c: char)
    requires d < 10
    ensures '0' <= c <= '9'
  {
    "0123456789"[d]
  }

  /** Number.prototype.toString for an integer. */
  function IntToString(i: int): (s: string)
    ensures |s| >= 1
    ensures (i < 0) <==> s[0] == '-'
    ensures (0 <= i < 10) <==> (|s| == 1 && '0' <= s[0] <= '9')
    ensures 0 <= i < 10 ==> s == [DigitChar(i)]
    decreases if i < 0 then -i + 1 else i
  {
    if i < 0 then "-" + IntToString(-i)
    else if i < 10 then [DigitChar(i)]
    else IntToString(i / 10) + [DigitChar(i % 10)]
  }

  /** isInitialized: cameras were chosen (possibly as unavailable). */
  predicate IsInitialized(backCamera: Slot): (r: bool)
    ensures r <==> backCamera.Chosen? || backCamera == Unavailable
  {
    backCamera != NotChosen
  }

  /** canChangeCamera: both roles hold an actual camera. */
  predicate CanChangeCamera(backCamera: Slot, frontCamera: Slot): (r: bool)
    ensures r ==> IsInitialized(backCamera) && IsInitialized(frontCamera)
    ensures r <==> backCamera != Unavailable && backCamera != NotChosen && frontCamera != Unavailable && frontCamera != NotChosen
  {
    backCamera.Chosen? && frontCamera.Chosen?
  }

  /** calcStatus over the state it reads; `showing` is whether the preview element is in the document. */
  function CalcStatus(backCamera: Slot, frontCamera: Slot, currentCamera: int, scanning: bool, previewing: bool, previewPresent: bool): (s: Status)
    ensures s.authorized == "1" <==> backCamera.Chosen?
    ensures s.prepared == "1" <==> backCamera != NotChosen
    ensures s.canChangeCamera == "1" <==> backCamera.Chosen? && frontCamera.Chosen?
    ensures s.authorized == "1" ==> s.prepared == "1"
    ensures s.canChangeCamera == "1" ==> s.authorized == "1"
    ensures backCamera == Unavailable ==> s.prepared == "1" && s.authorized == "0"
    ensures s.scanning == "1" <==> scanning
    ensures s.previewing == "1" <==> previewing
    ensures s.showing == "1" <==> previewPresent
    ensures s.denied == "0" && s.restricted == "0" && s.lightEnabled == "0"
    ensures s.canOpenSettings == "0" && s.canEnableLight == "0"
    ensures s.currentCamera == "0" <==> currentCamera == 0
    ensures s.currentCamera == "1" <==> currentCamera == 1
  {
    Status(
      Flag(backCamera.Chosen?),
      "0",
      "0",
      Flag(IsInitialized(backCamera)),
      Flag(scanning),
      Flag(previewing),
      Flag(previewPresent),
      "0",
      "0",
      "0",
      Flag(CanChangeCamera(backCamera, frontCamera)),
      IntToString(currentCamera))
  }
}
